=== FILE: README.md ===
# BAC calculator — a Dafny model

A model of the core of the BAC_Calculator Flask application: the `Drink` and
`User` value classes, the blood-alcohol estimator, and the session "ledger"
that the route handlers of `main.py` keep (picked catalog drinks, custom
drinks, the drink history and the last calculating user). The older
`alcohol_calculator.py` is modelled as a second, separate instantiation with
its own catalog, its own gender fallback and rounding, and no history.

Every route becomes a pure function from the ledger and the form fields to a
new ledger, or to an error that leaves the ledger as it was. Floats are
exact reals; Python's `round` is modelled as rounding half up on the exact
value, except for the age factor, whose float is modelled so that its ties
round as in Python.

Files, one module each:

- `results.dfy` (`Results`): error kinds, `Result`, `Option`, form fields that
  may be absent or unparsable, and the outcome of `calculate`.
- `rounding.dfy` (`Rounding`): `round(x, 2)` and `round(x, 3)` with their
  error bound and monotonicity.
- `text.dfy` (`Text`): `isupper`, `lower` and `str(int)` for the characters
  the model needs.
- `drink.dfy` (`Drinks`): units, `calculate_volume_in_liters`, construction
  with its checks, the canonicalising `volume_in_liters`, `alcohol_content`,
  `__str__`, `__eq__` and `__hash__`.
- `user.dfy` (`Users`): construction with its range checks, `__str__`,
  `__eq__`, and reading a User from the calculate form.
- `selection.dfy` (`Selection`): the list operations the routes rely on,
  generic in the element type: stable descending sort by key, `list.count`,
  the count dictionary, `next(...)` lookup, `list.remove`, sums and
  filtering comprehensions.
- `estimator.dfy` (`Estimator`): the estimator of `main.py`.
- `views.dfy` (`Views`): the combined, sorted drink list and the drink
  summary that both applications derive from their session.
- `routes.dfy` (`Routes`): the ledger and the route handlers of `main.py`.
- `legacy.dfy` (`Legacy`): the estimator and route handlers of
  `alcohol_calculator.py`.

## Model

| member | source | states |
|---|---|---|
| `Results.ReadField` | main.py:248-250 | A missing form field takes its default, a parsable one its value, and only unparsable text is an error. |
| `Rounding.RoundError` | main.py:77-78 | Rounding to the grid 1/scale moves a value by at most half a grid step. |
| `Rounding.RoundMonotone` | main.py:85 | Rounding never reverses the order of two values. |
| `Rounding.Round2` | main.py:77 | `round(x, 2)` on an exact real: the nearest multiple of a hundredth, ties upward. |
| `Rounding.Round3` | main.py:78 | `round(x, 3)` on an exact real: the nearest multiple of a thousandth, ties upward. |
| `Text.Lower` | models/drink.py:88-89 | `lower()` keeps the length and lowers each character on its own. |
| `Text.IsUpperCharExamples` | models/drink.py:51 | `isupper()` on a name's first character, limited to ASCII and Latin-1: B, Z and É are capitals; b, é, 1, ×, ß and a space are not. |
| `Text.IntText` | models/user.py:29 | `str(age)`: a minus sign exactly for negative ages, then decimal digits. |
| `Text.IntTextValue` | models/user.py:29 | Reading the digits of `str(n)` back gives n (after the sign for a negative n). |
| `Text.NatTextValue` | models/user.py:29 | Reading the digits of a natural number's text back gives the number. |
| `Drinks.ParseUnit` | models/drink.py:35-36 | A unit string is accepted exactly when it is one of "L", "ml", "cl", and the accepted unit spells back to the same string. |
| `Drinks.ParseUnitText` | models/drink.py:9 | Spelling a unit and parsing it back gives the same unit. |
| `Drinks.ToLiters` | models/drink.py:13-22 | L is kept, cl is divided by 100, ml by 1000, and any other unit is an error. |
| `Drinks.OneLitreEverywhere` | models/drink.py:13-22 | 1000 ml, 100 cl and 1 L are all one litre. |
| `Drinks.VolumeInLiters` | models/drink.py:54-69 | Returns the litres of the fields as they were on entry; a negative volume is an error; an ml or cl drink above one litre is rewritten to litres within 0.005 of its volume; a drink already in canonical form is untouched. |
| `Drinks.Create` | models/drink.py:32-52 | Construction succeeds exactly when the unit is valid, the alcohol is in [0, 100], the litres are in [0, 50] and the name starts with an upper-case letter; each failure gives its own error in the source's order of checks; a built drink keeps name and alcohol and has either the given volume and unit or the rounded litre form. |
| `Drinks.CanonicalStaysInRange` | models/drink.py:45-48 | Rewriting a drink of at most 50 litres to litres keeps it within [0, 50] litres. |
| `Drinks.ReadIsStable` | models/drink.py:54-69 | Reading the volume of a constructed drink changes none of its fields. |
| `Drinks.CreateReload` | models/drink.py:25-30 | Rebuilding a constructed drink from its own fields gives the same drink back. |
| `Drinks.RewriteChangesLaterReads` | models/drink.py:62-64 | The first read of 1234 ml returns 1.234 but stores 1.23 L, so a later read returns 1.23. |
| `Drinks.CanonicalExamples` | models/drink.py:62-67 | 2000 ml is stored as 2 L while 1000 ml and 500 ml keep their unit, and a volume of zero is accepted. |
| `Drinks.AlcoholContent` | models/drink.py:71-73 | The alcohol in litres of a constructed drink lies in [0, 50] and within 0.005 of litres times percentage over 100. |
| `Drinks.Display` | models/drink.py:75-77 | `__str__`: name, " (", volume, a space, unit, ", ", alcohol and "%)", the numbers rendered by `fmt`. |
| `Drinks.DisplayFrame` | models/drink.py:75-77 | The display string starts with the name and " (" and ends with "%)" under any number format. |
| `Drinks.DisplayExample` | models/drink.py:75-77 | A 500 ml beer at 5 percent displays as "Beer (500 ml, 5%)". |
| `Drinks.Same` | models/drink.py:83-92 | `__eq__`: names and units equal after `lower()`, alcohol and volume equal exactly. |
| `Drinks.SameUnitExact` | models/drink.py:89 | Comparing the units case-insensitively is comparing them exactly. |
| `Drinks.SameIsEquivalence` | models/drink.py:83-92 | Drink equality is reflexive, symmetric and transitive. |
| `Drinks.SameExamples` | models/drink.py:88-91 | Names differing only in case are equal; 500 ml and 2 L of the same beer are not. |
| `Drinks.HashKey` | models/drink.py:94-95 | `__hash__` hashes the tuple of name (case kept), volume and alcohol; two drinks with the same key hash alike. |
| `Drinks.MergedAreIdentical` | models/drink.py:94-95 | Two drinks that are equal and hash alike have identical fields, so with one rendering per number a set merge loses no display string (see Left out for Python's int and float). |
| `Drinks.HashIgnoresEquality` | models/drink.py:83-95 | Two drinks differing only in the case of the name are equal but hash differently. |
| `Users.Create` | models/user.py:17-25 | A user is built exactly when age is in [0, 150] and weight in [0, 500]; age is checked first; the gender is not checked. |
| `Users.GenderUnchecked` | models/user.py:17-25 | Changing the gender string never changes whether a user can be built. |
| `Users.CreateReload` | models/user.py:10-15 | Rebuilding a valid user from its fields gives it back. |
| `Users.Display` | models/user.py:27-29 | The display string starts with the name and " (" and ends with " Kg)". |
| `Users.DisplayExample` | models/user.py:27-29 | Alice, 34, female, 65 kg displays as "Alice (34 years, female, 65 Kg)". |
| `Users.Same` | models/user.py:35-44 | `__eq__`: name, age, gender and weight all equal. |
| `Users.SameIsStructural` | models/user.py:35-44 | User equality is field-by-field equality, with the name compared case-sensitively. |
| `Users.FromForm` | main.py:247-263 | The calculate form yields a user named "User" with defaults 70 kg, age 20 and "male" exactly when both numbers parse and are in range. |
| `Selection.SortBy` | main.py:102-106 | The combined list is a permutation of its input, ordered by non-increasing key. |
| `Selection.SortIsStable` | main.py:105 | Elements with equal keys keep their relative order through the sort. |
| `Selection.CountSame` | main.py:118 | `list.count` is at most the length and at least one when some element is equal. |
| `Selection.SummaryKeys` | main.py:117-119 | The comprehension over the first n elements has a key for each of their tokens and no other key. |
| `Selection.Summary` | main.py:117-119 | The count dictionary has a key for every element's token, only such keys, values between one and the length, and is empty exactly for the empty list. |
| `Selection.SummaryLastWins` | main.py:117-119 | When several elements share a token, the entry holds the count of the last of them. |
| `Selection.FirstMatch` | alcohol_calculator.py:101 | `next(...)` over a list gives the first element showing as the token, and None exactly when none does. |
| `Selection.RemoveFirst` | main.py:206 | `list.remove` fails exactly when the element is absent, otherwise removes its first occurrence only. |
| `Selection.SumOfSorted` | main.py:98-99 | Summing over the sorted list gives the same total as summing over the original. |
| `Selection.Filter` | main.py:160-162 | The comprehension keeps exactly the entries the condition accepts. |
| `Selection.FilterIdempotent` | main.py:160-162 | Filtering twice with the same condition is filtering once. |
| `Views.Combine` | main.py:102-107 | The combined view is a permutation of picked then custom drinks, sorted by non-increasing litres; alcohol_calculator.py:70-79 is the same. |
| `Views.CombineMembers` | main.py:102-107 | A drink is in the combined view exactly when it is picked or custom, and the view is as long as both lists together. |
| `Views.CombineValid` | main.py:103-104 | Combining constructed drinks yields only constructed drinks. |
| `Views.DrinkSummary` | main.py:117-119 | One key per display string of a picked or custom drink, only such keys, counts between one and the number of drinks, and empty exactly when there are no drinks; alcohol_calculator.py:85-87 and 203-205 build the same summary. |
| `Estimator.AgeFactor` | main.py:65-66 | One up to age 20; above 20 within half a hundredth of one minus a thousandth per year beyond 20; within [0.87, 1] for every age a user may have. |
| `Estimator.AgeFactorAtTies` | main.py:66 | At the two-place ties the float decides: 25, 35, ..., 75 round down (0.99 at 25), 85, 95, ..., 145 round up. |
| `Estimator.TieRoundsDown` | main.py:66 | At 25, 35, ..., 75 the float just below the tie rounds to the lower neighbour. |
| `Estimator.AgeFactorNearTwenty` | main.py:65-66 | From 21 to 24 the small decrease rounds away and the factor is one. |
| `Estimator.AgeFactorNonIncreasing` | main.py:65-66 | The age factor never grows with age. |
| `Estimator.AgeFactorExamples` | tests/test_helper_functions.py:18-23 | One at 18 and 20, 0.99 at 25 and 30, 0.98 at 40, 0.97 at 50, 0.92 at 100 and 0.87 at 150. |
| `Estimator.GenderFactor` | main.py:69-70 | 0.6 for "female" and 0.7 for every other string. |
| `Estimator.ReductionFactor` | main.py:69-70 | Within [0.522, 0.7] for valid ages; the gender factor alone up to age 20; above 20 the gender factor times one minus a thousandth per year, to within half a hundredth of the age term. |
| `Estimator.ReductionFactorExamples` | tests/test_helper_functions.py:25-32 | 0.7 for a man of 18, 0.693 for a man of 25, 0.588 for a woman of 40, and 0.7 for an unknown gender at 20. |
| `Estimator.Bac` | main.py:73-78 | A zero denominator, which for valid ages means a zero weight, is a division error; otherwise the result is within 0.0005 of the rounded absorbed alcohol over weight times reduction factor, and no alcohol gives zero. |
| `Estimator.BacMonotone` | main.py:73-78 | More alcohol never lowers the estimate. |
| `Estimator.BacNonNegative` | main.py:73-78 | A non-negative total gives a non-negative estimate. |
| `Estimator.BacExample` | tests/test_helper_functions.py:34-46 | 40 units for a 70 kg man aged 18 give 0.694; 10 units for a 55 kg woman aged 25 give 0.26. |
| `Estimator.ScaledRate` | main.py:84-85 | The rounded weight-scaled rate is within half a hundredth of the rate times weight over 70, and for a floored rate and non-negative weight at least the rounded scaled floor. |
| `Estimator.ScaledRateMonotone` | main.py:84-85 | A faster hourly rate never gives a slower scaled rate. |
| `Estimator.MetabolismRate` | main.py:81-85 | Within half a hundredth of max(0.10, 0.15 times the age factor) times weight over 70; for a non-negative weight at least the rounded floor rate 0.10 scaled by weight over 70. |
| `Estimator.HourlyRate` | main.py:82-83 | The hourly rate before weight scaling: 0.15 times the age factor, raised to 0.10 when below it. |
| `Estimator.HourlyRateNonIncreasing` | main.py:82-83 | The floored hourly rate never grows with age. |
| `Estimator.MetabolismSlowsWithAge` | main.py:81-85 | An older drinker never metabolises faster than a younger one of the same weight. |
| `Estimator.MetabolismRateExamples` | tests/test_helper_functions.py:48-55 | 0.15 at age 30 and 70 kg, 0.17 at age 40 and 80 kg, 0.14 at age 100 and 70 kg, and zero at 2 kg. |
| `Estimator.TimeToSober` | main.py:88-95 | A zero rate is a division error; otherwise the result is within 0.005 of BAC over the rate. |
| `Estimator.TimeToSoberDefined` | main.py:81-90 | From 4 kg upward the rate is positive, so the time to sober is defined. |
| `Estimator.TimeToSoberExamples` | tests/test_helper_functions.py:57-61 | 6.67, 1.54 and 0.67 hours for the three example inputs. |
| `Estimator.TotalAlcohol` | main.py:98-99 | Zero for no drinks, otherwise within 0.005 of the sum of the contributions. |
| `Estimator.TotalAlcoholOrderFree` | main.py:98-99 | The total does not depend on the sort order of the drinks. |
| `Routes.CatalogBuilt` | main.py:52-61 | Each catalog entry is what the constructor builds from its literal. |
| `Routes.CatalogValid` | main.py:52-61 | Every catalog drink passes the constructor's checks. |
| `Routes.AddDrink` | main.py:168-192 | An unknown token is an error; otherwise a drink of catalog or combined list that displays as the token is appended to the picked drinks, a history entry with the token, time and timestamp is appended, and nothing else changes. |
| `Routes.RemoveDrink` | main.py:195-214 | An unknown token is an error, a found drink that was not picked is an error; otherwise its first occurrence is removed and the history is filtered, in order, to the entries of other drinks. |
| `Routes.AddCustomDrink` | main.py:217-242 | Unparsable numbers or a failed construction leave the session alone; otherwise the drink (unit ml by default) and its history entry are appended. |
| `Routes.RemoveHistoryEntry` | main.py:155-165 | The history is filtered, in order, to the entries whose drink or time differ from the pair; nothing else changes, and a pair matching no entry changes nothing. |
| `Routes.RemoveHistoryEntryIdempotent` | main.py:155-165 | Removing the same history entry twice is removing it once. |
| `Routes.RemoveHistoryEntryKeepsOrder` | main.py:160-162 | Removing from a history that grew by one entry gives the removal from the old history followed by the new entry, unless it is the one removed. |
| `Routes.ResetHistory` | main.py:145-152 | Picked drinks, custom drinks and history are emptied and the user kept. |
| `Routes.Reset` | main.py:296-303 | The whole session, user included, is cleared. |
| `Routes.Calculate` | main.py:245-293 | The route as intended, with the per-drink contribution as a parameter: an invalid form leaves the session alone; a valid one stores the user; no drinks gives the no-drinks answer before any arithmetic; a zero weight or zero rate gives the calculation error; otherwise the BAC, the time and the summary over all picked and custom drinks. |
| `Routes.CalculateAsWritten` | main.py:98-99 | The route as it runs: as above up to the no-drinks check, but any picked or custom drink gives the calculation error (the missing `alcohol_grams` raises AttributeError, caught at main.py:281), and no estimate is ever produced. |
| `Routes.AsWrittenHidesEstimates` | main.py:270-285 | The two agree on the session and on every answer except an estimate, which the route as written replaces by the calculation error. |
| `Routes.OneBeerIsNeverEstimated` | main.py:264-285 | One half-litre beer with the default form: the intended route estimates, the route as written shows the calculation error. |
| `Routes.AddThenRemove` | main.py:168-214 | Removing a drink just added with the same token restores the picked drinks as a multiset and leaves no history entry for it. |
| `Routes.ResetLeavesNothingToCalculate` | main.py:145-152 | After either reset, calculating gives no number. |
| `Legacy.LegacyCatalogBuilt` | alcohol_calculator.py:31-40 | Each legacy catalog entry, with the first beer as 1000 ml, is what the constructor builds from its literal. |
| `Legacy.LegacyCatalogValid` | alcohol_calculator.py:31-40 | Every legacy catalog drink passes the constructor's checks. |
| `Legacy.LegacyGenderFactor` | alcohol_calculator.py:28 | 0.7 for "male", 0.6 for "female", one for any other string. |
| `Legacy.LegacyAgeFactor` | alcohol_calculator.py:48 | Unrounded: one up to age 20, one thousandth less per year beyond, within [0.87, 1] for valid ages. |
| `Legacy.LegacyBac` | alcohol_calculator.py:44-51 | A zero denominator is a division error; otherwise the result is within 0.0005 of the unrounded absorbed alcohol over weight times reduction factor. |
| `Legacy.LegacyBacMonotone` | alcohol_calculator.py:44-51 | More alcohol never lowers the legacy estimate. |
| `Legacy.GenderFallbackDiffers` | alcohol_calculator.py:49 | For an unknown gender the legacy estimate is 0.486 where main.py gives 0.694. |
| `Legacy.VariantsAgreeWhenYoung` | alcohol_calculator.py:44-51 | Up to age 20 and for the two known genders, both estimators agree when the absorbed alcohol is already on the two-place grid. |
| `Legacy.LegacyHourlyRate` | alcohol_calculator.py:56-57 | The hourly rate is at least 0.10, above 0.15 below age 20 and at most 0.15 from age 20. |
| `Legacy.LegacyMetabolismRate` | alcohol_calculator.py:54-60 | Positive and at least the floor rate scaled by weight for every positive weight, zero for zero weight. |
| `Legacy.LegacyRateFasterWhenYoung` | alcohol_calculator.py:56-60 | Below age 20 the legacy rate exceeds 0.15 scaled by weight, while main.py's unrounded rate there is exactly 0.15. |
| `Legacy.LegacyTimeToSober` | alcohol_calculator.py:54-61 | For a non-negative weight it fails exactly at zero weight; otherwise it is within 0.005 of BAC over the rate. |
| `Legacy.LegacyTimeToSoberExamples` | alcohol_calculator.py:54-61 | 6.67 and 0.67 hours at 70 kg and age 20. |
| `Legacy.Contribution` | alcohol_calculator.py:66 | One drink's alcohol in grams: litres times alcohol percent times 0.789, unrounded. |
| `Legacy.LegacyTotalAlcohol` | alcohol_calculator.py:64-67 | No drinks give zero. |
| `Legacy.LegacyTotalNonNegative` | alcohol_calculator.py:64-67 | The total over constructed drinks is never negative. |
| `Legacy.LegacyTotalOrderFree` | alcohol_calculator.py:64-77 | The total does not depend on the sort order. |
| `Legacy.LegacyAddDrink` | alcohol_calculator.py:98-111 | Looks only in the legacy catalog: an unknown token is an error; otherwise the first catalog drink displaying as the token is appended, and nothing else changes. |
| `Legacy.RemovePicked` | alcohol_calculator.py:123-124 | Removal fails exactly when the drink was not picked, otherwise drops its first occurrence only. |
| `Legacy.LegacyRemoveDrink` | alcohol_calculator.py:114-127 | Looks only in the legacy catalog; succeeds exactly when some catalog drink displays as the token and the first such drink was picked. |
| `Legacy.LegacyAddCustomDrink` | alcohol_calculator.py:130-145 | All or nothing: unparsable numbers or a failed construction leave the session alone; otherwise only the custom drinks grow by the built drink. |
| `Legacy.LegacyCalculate` | alcohol_calculator.py:148-210 | The same order of checks as main.py over the legacy estimator; the calculation error happens exactly for a zero weight. |
| `Legacy.LegacyReset` | alcohol_calculator.py:213-219 | Picked and custom drinks are emptied and the user is kept. |
| `Legacy.LegacyResetLeavesNoDrinks` | alcohol_calculator.py:213-219 | After a reset, any valid form gives the no-drinks answer. |
| `Legacy.LegacyAddThenRemove` | alcohol_calculator.py:98-127 | Adding any catalog drink by its display string succeeds, and removing it with the same string then succeeds and restores the picked drinks as a multiset. |
| `Legacy.TestTokenUnmatched` | tests/test_app.py:26-41 | The token "Bier (1000ml, 6%)" posted by the application test matches no legacy catalog drink, so that add is a "not found". |
| `Legacy.NotTheTestToken` | alcohol_calculator.py:101 | No drink whose volume prints without spaces displays as "Bier (1000ml, 6%)". |

## Left out

- Flask itself: requests, redirects, flash messages, templates, cookies and
  the server-side session store. The session is the explicit ledger value.
- Logging, the `/history` and `/health-check` pages (they only render or
  answer), and the `index` page's list of all unique drinks for the picker
  (a display list built from a set).
- The clock: the formatted time and timestamp of a history entry are
  parameters of the routes that write history.
- `Drink.alcohol_grams`, called by `calculate_total_alcohol_in_grams` but not
  defined in models/drink.py: the per-drink contribution is a parameter
  `grams` of `Estimator.TotalAlcohol` and `Routes.Calculate`. The expected
  total of 38.67 in tests/test_helper_functions.py:63-71 therefore has no
  counterpart in the model.
- `Routes.Calculate`: its estimate branch assumes a defined contribution.
  As written, main.py:99 raises AttributeError for every non-empty drink
  list, main.py:281 catches it, and every such calculation shows
  "Calculation error. Please try again."; that behaviour is
  `Routes.CalculateAsWritten` (see Findings).
- Python's `str` of a float: number rendering is the parameter `fmt` of the
  display functions.
- Python's hash order of sets: main.py looks drinks up in a set, so the
  drink found for a token is passed in, constrained only to be some drink of
  the pool that displays as the token (`Selection.IsLookup`).
- Binary floating point, NaN and infinities: reals are exact and rounding is
  half up. Python rounds the binary float, which at an exact decimal tie may
  lie on either side; the error bounds below allow both neighbours, so they
  hold either way, but a value the model computes at such a tie is the upper
  neighbour. The age factor is the exception: its float is modelled, and
  the ties at 25, 35, ..., 75 round down as in Python.
- A missing `custom-drink-name` or number field in `add_custom_drink` raises
  KeyError, which the route does not catch; the model takes the fields as
  given and only distinguishes parsable from unparsable numbers.
- `Routes.RemoveDrink`: when the found drink was never picked, `list.remove`
  raises ValueError, which the route does not catch (the request fails);
  the model returns the error `NotInSelection` and leaves the session as
  it was.
- `Legacy.LegacyRemoveDrink`: the same uncaught ValueError, modelled the same
  way through `Legacy.RemovePicked`.
- Python's int and float distinction: `fmt` renders a number the same way
  whatever its Python type, but Python prints 100 as "100" and 100.0 as
  "100.0" while `__eq__` and `__hash__` treat them alike. After a custom
  "Sekt" of 100.0 ml at 11.0 % is added (main.py:222-223), the set built at
  main.py:171 can keep it and drop the catalog's "Sekt (100 ml, 11%)", so
  the source answers "Drink not found" to the catalog token where the
  model's lookup (`Selection.IsLookup` over the pool) still finds a drink.
- Unicode case mapping beyond ASCII and Latin-1 in `isupper` and `lower`:
  Python also counts capitals such as Greek or Cyrillic ones as upper case.
- `Estimator.Bac`: states the result within half a unit of the third place
  of the quotient rather than its exact rounded value, because that is what
  rounding promises independent of ties.
- `Estimator.AgeFactor`: above age 20, same form, within half a unit of the
  second place; the direction at ties is stated by
  `Estimator.AgeFactorAtTies` and the tests' ages exactly by
  `Estimator.AgeFactorExamples`.
- `Estimator.ReductionFactor`: above age 20, within the gender factor times
  half a hundredth of the linear age term, as it inherits the age factor's
  bound.
- `Estimator.TimeToSober`: same form, within half a unit of the second place.
- `Estimator.TotalAlcohol`: same form, within half a unit of the second place.
- `Estimator.MetabolismRate`: same form, within half a unit of the second
  place of the floored hourly rate scaled by weight over 70.
- `Drinks.AlcoholContent`: same form as the estimator, within half a unit of
  the second place.
- `Legacy.LegacyBac`: same form, within half a unit of the third place.
- `Legacy.LegacyTimeToSober`: same form, within half a unit of the second
  place.
- `Legacy.LegacyTotalAlcohol`: its contract states only the empty case; its
  sign and order independence are separate lemmas.
- The test suites, static JavaScript and the flake8 style check.

## Findings

| source | as written | input that shows it | evidently intended | confidence | as-written member | corrected member |
|---|---|---|---|---|---|---|
| main.py:98-99 | `drink.alcohol_grams()` is called, but Drink (models/drink.py) defines no such method, so the AttributeError is caught at main.py:281 and the page shows the calculation error | one "Bier (0.5 L, 5.0%)" picked and the default form (70 kg, male, 20 years) | sum each drink's alcohol in grams and show the BAC and time to sober | high; not executed | `Routes.CalculateAsWritten` (`Routes.OneBeerIsNeverEstimated`) | `Routes.Calculate` (`Routes.AsWrittenHidesEstimates`) |

=== FILE: drink.dfy ===
/** The drink value of models/drink.py: unit conversion, validated
    construction, the canonicalising volume read, alcohol content, the display
    string that doubles as the drink's lookup token, and case-insensitive
    equality. */
module Drinks {
  import opened Results
  import opened Rounding
  import opened Text

  /** The three units the source accepts. The source keeps the unit as a
      string; strings outside these three are refused by `ParseUnit`. */
  datatype Unit = Litre | Centilitre | Millilitre

  /** The unit's spelling in the source: "L", "cl", "ml". */
  function UnitText(u: Unit): string
  {
    match u
    case Litre => "L"
    case Centilitre => "cl"
    case Millilitre => "ml"
  }

  /** How many of the unit make one litre. */
  function PerLitre(u: Unit): (r: real)
    ensures r >= 1.0
  {
    match u
    case Litre => 1.0
    case Centilitre => 100.0
    case Millilitre => 1000.0
  }

  /** Membership in VALID_UNITS, recovering the unit. */
  function ParseUnit(s: string): (r: Result<Unit>)
    ensures r.Ok? <==> s in ["L", "ml", "cl"]
    ensures r.Ok? ==> UnitText(r.value) == s
    ensures r.Err? ==> r.error == InvalidUnit
  {
    if s == "L" then Ok(Litre)
    else if s == "cl" then Ok(Centilitre)
    else if s == "ml" then Ok(Millilitre)
    else Err(InvalidUnit)
  }

  /** Spelling a unit and parsing it back is the identity. */
  lemma ParseUnitText(u: Unit)
    ensures ParseUnit(UnitText(u)) == Ok(u)
  {
  }

  /** `calculate_volume_in_liters`: L is the identity, cl divides by 100,
      ml by 1000, anything else is an invalid unit. */
  function ToLiters(volume: real, unit: string): (r: Result<real>)
    ensures unit == "L" ==> r == Ok(volume)
    ensures unit == "cl" ==> r == Ok(volume / 100.0)
    ensures unit == "ml" ==> r == Ok(volume / 1000.0)
    ensures r.Err? <==> unit !in ["L", "ml", "cl"]
  {
    match ParseUnit(unit)
    case Ok(u) => Ok(volume / PerLitre(u))
    case Err(e) => Err(e)
  }

  /** The three units agree on one litre. */
  lemma OneLitreEverywhere()
    ensures ToLiters(1000.0, "ml") == ToLiters(100.0, "cl") == ToLiters(1.0, "L") == Ok(1.0)
  {
  }

  datatype Drink = Drink(name: string, volume: real, unit: Unit, alcohol: real)

  /** The drink's volume in litres, computed from its stored fields. */
  function Liters(d: Drink): real
  {
    d.volume / PerLitre(d.unit)
  }

  /** The form every constructed drink is in: litres, or at most one litre. */
  predicate Canonical(d: Drink)
  {
    d.unit == Litre || Liters(d) <= 1.0
  }

  /** What `__post_init__` guarantees of every Drink object. */
  predicate Valid(d: Drink)
  {
    && 0.0 <= d.alcohol <= 100.0
    && 0.0 <= Liters(d) <= 50.0
    && |d.name| > 0 && IsUpperChar(d.name[0])
    && Canonical(d)
  }

  /** Every drink of a list went through the constructor. */
  predicate AllValid(s: seq<Drink>)
  {
    forall i :: 0 <= i < |s| ==> Valid(s[i])
  }

  lemma AllValidAppend(s: seq<Drink>, d: Drink)
    requires AllValid(s) && Valid(d)
    ensures AllValid(s + [d])
  {
  }

  /** Dropping or reordering drinks keeps them all constructed. */
  lemma AllValidSubset(s: seq<Drink>, t: seq<Drink>)
    requires AllValid(s) && multiset(t) <= multiset(s)
    ensures AllValid(t)
  {
    forall i | 0 <= i < |t|
      ensures Valid(t[i])
    {
      assert t[i] in multiset(t);
      assert t[i] in multiset(s);
    }
  }

  /** The result of one `volume_in_liters()` call: the value it returns and
      the drink's fields after the call. */
  datatype VolumeRead = VolumeRead(liters: real, after: Drink)

  /** `volume_in_liters()`: returns the litres computed from the fields as
      they were on entry and, when an ml or cl drink exceeds one litre,
      rewrites it to litres rounded to two places. */
  function VolumeInLiters(d: Drink): (r: Result<VolumeRead>)
    ensures r.Err? <==> Liters(d) < 0.0
    ensures r.Err? ==> r.error == NegativeVolume
    ensures r.Ok? ==> r.value.liters == Liters(d)
    ensures r.Ok? ==> Canonical(r.value.after)
    ensures r.Ok? ==> r.value.after.name == d.name && r.value.after.alcohol == d.alcohol
    ensures r.Ok? && Canonical(d) ==> r.value.after == d
    ensures r.Ok? && !Canonical(d) ==>
      r.value.after.unit == Litre && Liters(d) - 0.005 <= Liters(r.value.after) <= Liters(d) + 0.005
  {
    var liters := Liters(d);
    if liters < 0.0 then Err(NegativeVolume)
    else if d.unit != Litre && liters > 1.0 then
      RoundError(liters, 100.0);
      Ok(VolumeRead(liters, d.(volume := Round2(d.volume / PerLitre(d.unit)), unit := Litre)))
    else Ok(VolumeRead(liters, d))
  }

  /** Constructing a drink: `Drink(name, volume, unit, alcohol)` with its
      `__post_init__` checks, in the source's order. */
  function Create(name: string, volume: real, unit: string, alcohol: real): (r: Result<Drink>)
    ensures r.Ok? <==>
      && unit in ["L", "ml", "cl"]
      && 0.0 <= alcohol <= 100.0
      && 0.0 <= ToLiters(volume, unit).value <= 50.0
      && |name| > 0 && IsUpperChar(name[0])
    ensures unit !in ["L", "ml", "cl"] ==> r == Err(InvalidUnit)
    ensures unit in ["L", "ml", "cl"] && !(0.0 <= alcohol <= 100.0) ==> r == Err(AlcoholOutOfRange)
    ensures unit in ["L", "ml", "cl"] && 0.0 <= alcohol <= 100.0 && ToLiters(volume, unit).value < 0.0 ==>
      r == Err(NegativeVolume)
    ensures unit in ["L", "ml", "cl"] && 0.0 <= alcohol <= 100.0 && ToLiters(volume, unit).value > 50.0 ==>
      r == Err(VolumeOutOfRange)
    ensures unit in ["L", "ml", "cl"] && 0.0 <= alcohol <= 100.0 && 0.0 <= ToLiters(volume, unit).value <= 50.0 ==>
      (|name| == 0 ==> r == Err(EmptyName)) && (|name| > 0 && !IsUpperChar(name[0]) ==> r == Err(InvalidName))
    ensures r.Ok? ==> Valid(r.value) && r.value.name == name && r.value.alcohol == alcohol
    ensures r.Ok? ==>
      || (r.value.volume == volume && UnitText(r.value.unit) == unit)
      || (unit != "L" && ToLiters(volume, unit).value > 1.0
          && r.value.unit == Litre && r.value.volume == Round2(ToLiters(volume, unit).value))
  {
    match ParseUnit(unit)
    case Err(e) => Err(e)
    case Ok(u) =>
      if !(0.0 <= alcohol <= 100.0) then Err(AlcoholOutOfRange)
      else match VolumeInLiters(Drink(name, volume, u, alcohol))
        case Err(e) => Err(e)
        case Ok(read) =>
          if !(0.0 <= read.liters <= 50.0) then Err(VolumeOutOfRange)
          else if |name| == 0 then Err(EmptyName)
          else if !IsUpperChar(name[0]) then Err(InvalidName)
          else
            CanonicalStaysInRange(Drink(name, volume, u, alcohol), read);
            Ok(read.after)
  }

  /** The rewrite of a drink holding at most 50 litres keeps it within
      [0, 50] litres. */
  lemma CanonicalStaysInRange(d: Drink, read: VolumeRead)
    requires VolumeInLiters(d) == Ok(read)
    requires 0.0 <= read.liters <= 50.0
    ensures 0.0 <= Liters(read.after) <= 50.0
  {
    if !Canonical(d) {
      RoundBetween(Liters(d), 1.0, 50.0, 100.0);
    }
  }

  /** Reading the volume of a constructed drink changes none of its fields,
      however often it is done. */
  lemma ReadIsStable(d: Drink)
    requires Valid(d)
    ensures VolumeInLiters(d) == Ok(VolumeRead(Liters(d), d))
  {
  }

  /** The drinks in the session are stored as field dictionaries and rebuilt
      with `Drink(**fields)`; rebuilding a constructed drink gives it back
      unchanged. */
  lemma CreateReload(d: Drink)
    requires Valid(d)
    ensures Create(d.name, d.volume, UnitText(d.unit), d.alcohol) == Ok(d)
  {
    ParseUnitText(d.unit);
    ReadIsStable(d);
  }

  /** The value `volume_in_liters()` returns is not idempotent: the first read
      of 1234 ml returns 1.234, the rewritten drink then reads 1.23. */
  lemma RewriteChangesLaterReads()
    ensures var d := Drink("Beer", 1234.0, Millilitre, 5.0);
      && VolumeInLiters(d).Ok?
      && VolumeInLiters(d).value.liters == 1.234
      && VolumeInLiters(VolumeInLiters(d).value.after) == Ok(VolumeRead(1.23, Drink("Beer", 1.23, Litre, 5.0)))
  {
  }

  /** The canonical forms of the model tests' drinks: 2000 ml becomes 2 L,
      while 1000 ml and 500 ml are kept as given. */
  lemma CanonicalExamples()
    ensures Create("Beer", 2000.0, "ml", 5.0) == Ok(Drink("Beer", 2.0, Litre, 5.0))
    ensures Create("Beer", 1000.0, "ml", 5.0) == Ok(Drink("Beer", 1000.0, Millilitre, 5.0))
    ensures Create("Beer", 500.0, "ml", 5.0) == Ok(Drink("Beer", 500.0, Millilitre, 5.0))
    ensures Create("Beer", 0.0, "L", 5.0).Ok?
  {
  }

  /** `alcohol_content()`: litres of pure alcohol, rounded to two places. */
  function AlcoholContent(d: Drink): (r: real)
    requires Valid(d)
    ensures 0.0 <= r <= 50.0
    ensures Liters(d) * (d.alcohol / 100.0) - 0.005 <= r <= Liters(d) * (d.alcohol / 100.0) + 0.005
  {
    var read := VolumeInLiters(d).value;
    var exact := read.liters * (d.alcohol / 100.0);
    ProductWithin(read.liters, d.alcohol / 100.0, 50.0);
    RoundError(exact, 100.0);
    RoundBetween(exact, 0.0, 50.0, 100.0);
    Round2(exact)
  }

  /** Python's `str` of a float, left abstract: the display string depends on
      it only through the two numbers it renders. */
  type NumberFormat = real -> string

  /** `__str__`: "{name} ({volume} {unit}, {alcohol}%)". */
  function Display(d: Drink, fmt: NumberFormat): string
  {
    d.name + " (" + fmt(d.volume) + " " + UnitText(d.unit) + ", " + fmt(d.alcohol) + "%)"
  }

  /** The display string starts with the name and " (" and ends with "%)",
      whatever the number format. */
  lemma DisplayFrame(d: Drink, fmt: NumberFormat)
    ensures var r := Display(d, fmt);
      |r| > |d.name| + 2 && r[..|d.name| + 2] == d.name + " (" && r[|r| - 2..] == "%)"
  {
  }

  /** `str` as a function value, the token by which routes look drinks up. */
  function Show(fmt: NumberFormat): Drink -> string
  {
    d => Display(d, fmt)
  }

  /** The display string of the tests' 500 ml beer, under any number format
      that renders 500 and 5 as Python renders the ints 500 and 5. */
  lemma DisplayExample(fmt: NumberFormat)
    requires fmt(500.0) == "500" && fmt(5.0) == "5"
    ensures Display(Drink("Beer", 500.0, Millilitre, 5.0), fmt) == "Beer (500 ml, 5%)"
  {
  }

  /** `__eq__`: name and unit compared case-insensitively, alcohol and volume
      exactly. */
  predicate Same(a: Drink, b: Drink)
  {
    && Lower(a.name) == Lower(b.name)
    && Lower(UnitText(a.unit)) == Lower(UnitText(b.unit))
    && a.alcohol == b.alcohol
    && a.volume == b.volume
  }

  /** Comparing units case-insensitively is comparing them exactly, because
      the three spellings differ once lowered. */
  lemma SameUnitExact(a: Drink, b: Drink)
    ensures Same(a, b) ==> a.unit == b.unit
  {
  }

  /** `__eq__` is an equivalence relation that includes structural equality. */
  lemma SameIsEquivalence(a: Drink, b: Drink, c: Drink)
    ensures Same(a, a)
    ensures Same(a, b) <==> Same(b, a)
    ensures Same(a, b) && Same(b, c) ==> Same(a, c)
  {
  }

  /** `__eq__` ignores the case of the name, and the tests' 500 ml beer
      differs from the 2 L one. */
  lemma SameExamples()
    ensures Same(Drink("Beer", 0.5, Litre, 5.0), Drink("BEER", 0.5, Litre, 5.0))
    ensures !Same(Drink("Beer", 500.0, Millilitre, 5.0), Drink("Beer", 2.0, Litre, 5.0))
  {
    assert Lower("Beer") == "beer";
    assert Lower("BEER") == "beer";
  }

  /** `__hash__`: name, volume and alcohol, the name with its case kept. */
  function HashKey(d: Drink): (string, real, real)
  {
    (d.name, d.volume, d.alcohol)
  }

  /** Drinks that a set merges (equal under `__eq__` and with the same hash)
      have identical fields. Since numbers here are exact reals with one
      rendering each, merging loses no display string in the model; Python
      can still merge an int-valued and a float-valued field that print
      differently, which this model does not represent. */
  lemma MergedAreIdentical(a: Drink, b: Drink)
    requires Same(a, b) && HashKey(a) == HashKey(b)
    ensures a == b
  {
    SameUnitExact(a, b);
  }

  /** The hash does not respect `__eq__`: two drinks that differ only in the
      case of the name are equal but hash differently. */
  lemma HashIgnoresEquality()
    ensures var a, b := Drink("Beer", 0.5, Litre, 5.0), Drink("BEER", 0.5, Litre, 5.0);
      Same(a, b) && HashKey(a) != HashKey(b)
  {
    SameExamples();
  }
}

=== FILE: estimator.dfy ===
/** The BAC estimator of main.py: age factor, gender reduction factor, BAC,
    metabolism rate with its floor, time to sober, and total alcohol. Every
    intermediate rounding of the source is kept. */
module Estimator {
  import opened Results
  import opened Rounding
  import opened Drinks
  import opened Selection

  const MetabolismPerHour: real := 0.15
  const AbsorptionRate: real := 0.85
  const MetabolismFloor: real := 0.10
  const BaselineWeight: real := 70.0

  function Max(a: real, b: real): real
  {
    if a >= b then a else b
  }

  /** One minus a thousandth per year beyond 20, as an exact decimal. */
  function LinearAgeFactor(age: int): real
  {
    1.0 - (age - 20) as real / 1000.0
  }

  /** The ages at which the linear factor is a two-place tie (it ends in 5
      in the third place) and the binary float main.py computes for it lies
      just below the tie, so that `round` goes down: 25, 35, ..., 75. From 85
      to 135 the float lies just above the tie, and at 145 it is exactly
      0.875, which Python's round-half-even takes to 0.88; all of these go
      up. */
  predicate TieBelow(age: int)
  {
    25 <= age <= 75 && age % 10 == 5
  }

  /** The float `1 - (age - 20) * 0.001` of main.py, for ages above 20,
      as far as `round(., 2)` can tell: placed one millionth below the
      decimal at the ties where the float falls below it, and the decimal
      itself everywhere else (including the ties where the float lies just
      above it, which round the same way). */
  function AgeFactorFloat(age: int): real
  {
    if TieBelow(age) then LinearAgeFactor(age) - 0.000001 else LinearAgeFactor(age)
  }

  /** At a tie below, the float rounds down to the lower neighbour. */
  lemma TieRoundsDown(age: int)
    requires TieBelow(age)
    ensures Round2(AgeFactorFloat(age)) == LinearAgeFactor(age) - 0.005
  {
    var q := (age - 15) / 10;
    assert age - 15 == 10 * q;
    var m := 100 - q;
    assert AgeFactorFloat(age) * 100.0 + 0.5 == m as real + 0.9999;
    assert Nearest(AgeFactorFloat(age) * 100.0) == m;
  }

  /** At any other tie the model's value is the decimal itself, which rounds
      half up; for 85 to 145 this is the direction the float goes too. */
  lemma TieRoundsUp(age: int)
    requires age % 10 == 5 && !TieBelow(age)
    ensures Round2(AgeFactorFloat(age)) == LinearAgeFactor(age) + 0.005
  {
    var q := (age - 15) / 10;
    assert age - 15 == 10 * q;
    var m := 100 - q;
    assert AgeFactorFloat(age) * 100.0 + 0.5 == m as real + 1.0;
    assert Nearest(AgeFactorFloat(age) * 100.0) == m + 1;
  }

  /** The float only ever falls a little below the exact decimal. */
  lemma FloatNearLinear(age: int)
    ensures LinearAgeFactor(age) - 0.000001 <= AgeFactorFloat(age) <= LinearAgeFactor(age)
  {
  }

  /** Above 20 the rounded float stays within half a hundredth of the
      decimal, and within the range a User's age allows. */
  lemma RoundedFloatBounds(age: int)
    requires 20 < age
    ensures LinearAgeFactor(age) - 0.005 <= Round2(AgeFactorFloat(age)) <= LinearAgeFactor(age) + 0.005
    ensures age <= 150 ==> 0.87 <= Round2(AgeFactorFloat(age)) <= 1.0
  {
    var x := AgeFactorFloat(age);
    if TieBelow(age) {
      TieRoundsDown(age);
    } else {
      RoundError(x, 100.0);
    }
    if age <= 150 {
      RoundBetween(x, 0.87, 1.0, 100.0);
    }
  }

  /** `calculate_age_factor`: one up to age 20, then one thousandth less per
      year, rounded to two places as Python rounds the float. */
  function AgeFactor(age: int): (r: real)
    ensures age <= 20 ==> r == 1.0
    ensures 20 < age ==> LinearAgeFactor(age) - 0.005 <= r <= LinearAgeFactor(age) + 0.005
    ensures 0 <= age <= 150 ==> 0.87 <= r <= 1.0
  {
    if age <= 20 then
      RoundOnGrid(1.0, 100.0);
      Round2(1.0)
    else
      RoundedFloatBounds(age);
      Round2(AgeFactorFloat(age))
  }

  /** Which way the ties go: down at 25, 35, ..., 75, where the float lies
      below the decimal, and up at 85, 95, ..., 145. */
  lemma AgeFactorAtTies(age: int)
    ensures TieBelow(age) ==> AgeFactor(age) == LinearAgeFactor(age) - 0.005
    ensures 85 <= age <= 145 && age % 10 == 5 ==> AgeFactor(age) == LinearAgeFactor(age) + 0.005
  {
    if TieBelow(age) {
      TieRoundsDown(age);
    } else if 85 <= age <= 145 && age % 10 == 5 {
      TieRoundsUp(age);
    }
  }

  /** The age factor never grows with age. */
  lemma AgeFactorNonIncreasing(a: int, b: int)
    requires a <= b
    ensures AgeFactor(b) <= AgeFactor(a)
  {
    if b > 20 {
      FloatNearLinear(b);
      if a > 20 {
        FloatNearLinear(a);
        RoundMonotone(AgeFactorFloat(b), AgeFactorFloat(a), 100.0);
      } else {
        RoundMonotone(AgeFactorFloat(b), 1.0, 100.0);
      }
    }
  }

  /** Between 21 and 24 the small decrease rounds away and the factor is one
      again. */
  lemma AgeFactorNearTwenty()
    ensures forall age :: 21 <= age <= 24 ==> AgeFactor(age) == 1.0
  {
    forall age | 21 <= age <= 24
      ensures AgeFactor(age) == 1.0
    {
      var y := AgeFactorFloat(age) * 100.0 + 0.5;
      assert 100.0 <= y < 101.0;
      assert Nearest(AgeFactorFloat(age) * 100.0) == 100;
    }
  }

  /** The tests' ages: one at 18 and 20, 0.99 at 25 (the tie that the float
      rounds down) and at 30, 0.97 at 50, and 0.87 at 150. */
  lemma AgeFactorExamples()
    ensures AgeFactor(18) == 1.0 && AgeFactor(20) == 1.0
    ensures AgeFactor(25) == 0.99 && AgeFactor(30) == 0.99
    ensures AgeFactor(40) == 0.98 && AgeFactor(50) == 0.97
    ensures AgeFactor(100) == 0.92 && AgeFactor(150) == 0.87
  {
    AgeFactorAtTies(25);
    RoundOnGrid(0.99, 100.0);
    RoundOnGrid(0.98, 100.0);
    RoundOnGrid(0.97, 100.0);
    RoundOnGrid(0.92, 100.0);
    RoundOnGrid(0.87, 100.0);
  }

  /** `REDUCTION_FACTOR.get(gender, 0.7)`: 0.7 for "male", 0.6 for "female",
      and 0.7 for every other string. */
  function GenderFactor(gender: string): (r: real)
    ensures gender == "female" ==> r == 0.6
    ensures gender != "female" ==> r == 0.7
  {
    if gender == "male" then 0.7 else if gender == "female" then 0.6 else 0.7
  }

  /** `calculate_reduction_factor`: gender factor times age factor; always
      positive for the ages a User may have. */
  function ReductionFactor(gender: string, age: int): (r: real)
    ensures 0 <= age <= 150 ==> 0.522 <= r <= 0.7
    ensures age <= 20 ==> r == GenderFactor(gender)
    ensures 20 < age ==>
      GenderFactor(gender) * (LinearAgeFactor(age) - 0.005) <= r
      <= GenderFactor(gender) * (LinearAgeFactor(age) + 0.005)
  {
    var g := GenderFactor(gender);
    if 20 < age then
      ScaleMonotone(g, LinearAgeFactor(age) - 0.005, AgeFactor(age));
      ScaleMonotone(g, AgeFactor(age), LinearAgeFactor(age) + 0.005);
      g * AgeFactor(age)
    else g * AgeFactor(age)
  }

  /** The tests' reduction factors: 0.7 for a man of 18, 0.693 for a man of
      25, 0.588 for a woman of 40, and the 0.7 fallback for an unknown
      gender. */
  lemma ReductionFactorExamples()
    ensures ReductionFactor("male", 18) == 0.7
    ensures ReductionFactor("male", 25) == 0.693
    ensures ReductionFactor("female", 40) == 0.588
    ensures ReductionFactor("unknown", 20) == 0.7
  {
    AgeFactorExamples();
  }

  /** `calculate_bac`: absorbed alcohol (total times 0.85, rounded to two
      places) over weight times reduction factor, rounded to three places.
      A zero denominator is the ZeroDivisionError the caller turns into a
      calculation error. */
  function Bac(weight: real, gender: string, age: int, total: real): (r: Result<real>)
    ensures r.Err? <==> weight * ReductionFactor(gender, age) == 0.0
    ensures 0 <= age <= 150 ==> (r.Err? <==> weight == 0.0)
    ensures r.Err? ==> r.error == DivisionByZero
    ensures r.Ok? ==>
      var exact := Round2(total * AbsorptionRate) / (weight * ReductionFactor(gender, age));
      exact - 0.0005 <= r.value <= exact + 0.0005
    ensures r.Ok? && total == 0.0 ==> r.value == 0.0
  {
    var denominator := weight * ReductionFactor(gender, age);
    if denominator == 0.0 then Err(DivisionByZero)
    else
      var absorbed := Round2(total * AbsorptionRate);
      RoundError(absorbed / denominator, 1000.0);
      if total == 0.0 then
        RoundOnGrid(0.0, 100.0);
        assert absorbed == 0.0;
        RoundOnGrid(0.0, 1000.0);
        Ok(Round3(absorbed / denominator))
      else Ok(Round3(absorbed / denominator))
  }

  /** With a non-zero denominator the estimate is the rounded quotient. */
  lemma BacIs(weight: real, gender: string, age: int, total: real)
    requires weight * ReductionFactor(gender, age) != 0.0
    ensures Bac(weight, gender, age, total)
      == Ok(Round3(Round2(total * AbsorptionRate) / (weight * ReductionFactor(gender, age))))
  {
  }

  /** Over a positive denominator, more alcohol never gives a lower rounded
      quotient. */
  lemma AbsorbedQuotientMonotone(t1: real, t2: real, d: real)
    requires 0.0 < d && t1 <= t2
    ensures Round3(Round2(t1 * AbsorptionRate) / d) <= Round3(Round2(t2 * AbsorptionRate) / d)
  {
    RoundMonotone(t1 * AbsorptionRate, t2 * AbsorptionRate, 100.0);
    var a1, a2 := Round2(t1 * AbsorptionRate), Round2(t2 * AbsorptionRate);
    DivideMonotone(a1, a2, d);
    RoundMonotone(a1 / d, a2 / d, 1000.0);
  }

  /** More alcohol never lowers the estimate, for any weight a User accepts. */
  lemma BacMonotone(weight: real, gender: string, age: int, t1: real, t2: real)
    requires 0.0 < weight && 0 <= age <= 150
    requires t1 <= t2
    ensures Bac(weight, gender, age, t1).value <= Bac(weight, gender, age, t2).value
  {
    assert 0.0 < weight * ReductionFactor(gender, age) by {
      ScaleStrict(weight, 0.0, ReductionFactor(gender, age));
    }
    BacIs(weight, gender, age, t1);
    BacIs(weight, gender, age, t2);
    AbsorbedQuotientMonotone(t1, t2, weight * ReductionFactor(gender, age));
  }

  /** A non-negative total gives a non-negative estimate. */
  lemma BacNonNegative(weight: real, gender: string, age: int, total: real)
    requires 0.0 < weight && 0 <= age <= 150 && 0.0 <= total
    ensures Bac(weight, gender, age, total).value >= 0.0
  {
    BacMonotone(weight, gender, age, 0.0, total);
  }

  /** The tests' examples: 40 units of alcohol for a 70 kg man aged 18,
      and 10 units for a 55 kg woman aged 25, whose age factor is the tie
      the float rounds down to 0.99. */
  lemma BacExample()
    ensures Bac(70.0, "male", 18, 40.0) == Ok(0.694)
    ensures Bac(55.0, "female", 25, 10.0) == Ok(0.26)
  {
    RoundOnGrid(34.0, 100.0);
    RoundOnGrid(8.5, 100.0);
    ReductionFactorExamples();
    assert (8.5 / (55.0 * 0.594) * 1000.0 + 0.5).Floor == 260;
  }

  /** The hourly rate before weight scaling: 0.15 times the age factor, but
      never below the 0.10 floor. */
  function HourlyRate(age: int): real
  {
    Max(MetabolismFloor, MetabolismPerHour * AgeFactor(age))
  }

  /** Scaling a floored rate by a non-negative weight over 70 kg and
      rounding keeps the scaled floor below it. */
  lemma ScaledFloorBelow(rate: real, weight: real)
    ensures MetabolismFloor <= rate && 0.0 <= weight ==>
      0.0 <= Round2(MetabolismFloor * (weight / BaselineWeight)) <= Round2(rate * (weight / BaselineWeight))
  {
    if MetabolismFloor <= rate && 0.0 <= weight {
      ScaleMonotone(weight / BaselineWeight, MetabolismFloor, rate);
      RoundMonotone(MetabolismFloor * (weight / BaselineWeight), rate * (weight / BaselineWeight), 100.0);
      ScaleMonotone(weight / BaselineWeight, 0.0, MetabolismFloor);
      RoundNonNegative(MetabolismFloor * (weight / BaselineWeight), 100.0);
    }
  }

  /** An hourly rate scaled by weight over 70 kg and rounded to two places.
      Scaling a floored rate by a non-negative weight never lands below the
      scaled floor, and the rounding moves it by at most half a hundredth. */
  function ScaledRate(rate: real, weight: real): (r: real)
    ensures MetabolismFloor <= rate && 0.0 <= weight ==>
      0.0 <= Round2(MetabolismFloor * (weight / BaselineWeight)) <= r
    ensures rate * (weight / BaselineWeight) - 0.005 <= r <= rate * (weight / BaselineWeight) + 0.005
  {
    RoundError(rate * (weight / BaselineWeight), 100.0);
    ScaledFloorBelow(rate, weight);
    Round2(rate * (weight / BaselineWeight))
  }

  /** The scaled rate is the rounded product (a step the solver does not
      take by itself once the products are in scope). */
  lemma ScaledRateIs(rate: real, weight: real)
    ensures ScaledRate(rate, weight) == Round2(rate * (weight / BaselineWeight))
  {
  }

  /** A faster hourly rate never gives a slower scaled rate. */
  lemma ScaledRateMonotone(x: real, y: real, weight: real)
    requires x <= y && 0.0 <= weight
    ensures ScaledRate(x, weight) <= ScaledRate(y, weight)
  {
    ScaledRateIs(x, weight);
    ScaledRateIs(y, weight);
    assert Round2(x * (weight / BaselineWeight)) <= Round2(y * (weight / BaselineWeight)) by {
      ScaleMonotone(weight / BaselineWeight, x, y);
      RoundMonotone(x * (weight / BaselineWeight), y * (weight / BaselineWeight), 100.0);
    }
  }

  /** `calculate_adjusted_metabolism_rate`: 0.15 per hour scaled by the age
      factor, floored at 0.10, scaled by weight over 70 kg, rounded to two
      places. */
  function MetabolismRate(age: int, weight: real): (r: real)
    ensures weight >= 0.0 ==> r >= Round2(MetabolismFloor * (weight / BaselineWeight)) >= 0.0
    ensures HourlyRate(age) * (weight / BaselineWeight) - 0.005 <= r
      <= HourlyRate(age) * (weight / BaselineWeight) + 0.005
  {
    assert MetabolismFloor <= HourlyRate(age);
    ScaledRate(HourlyRate(age), weight)
  }

  /** The tests' rates, and the few-kilogram weight a User accepts whose rate
      rounds to zero. */
  lemma MetabolismRateExamples()
    ensures MetabolismRate(30, 70.0) == 0.15
    ensures MetabolismRate(40, 80.0) == 0.17
    ensures MetabolismRate(100, 70.0) == 0.14
    ensures MetabolismRate(20, 2.0) == 0.0
  {
    AgeFactorExamples();
  }

  /** The floored hourly rate never grows with age. */
  lemma HourlyRateNonIncreasing(a: int, b: int)
    requires a <= b
    ensures HourlyRate(b) <= HourlyRate(a)
  {
    AgeFactorNonIncreasing(a, b);
    ScaleMonotone(MetabolismPerHour, AgeFactor(b), AgeFactor(a));
  }

  /** An older drinker never metabolises faster than a younger one of the
      same weight. */
  lemma MetabolismSlowsWithAge(a: int, b: int, weight: real)
    requires a <= b && 0.0 <= weight
    ensures MetabolismRate(b, weight) <= MetabolismRate(a, weight)
  {
    HourlyRateNonIncreasing(a, b);
    ScaledRateMonotone(HourlyRate(b), HourlyRate(a), weight);
  }

  /** `calculate_time_to_sober`: BAC over the metabolism rate, rounded to two
      places; a rate of zero is a ZeroDivisionError. */
  function TimeToSober(bac: real, weight: real, age: int): (r: Result<real>)
    ensures r.Err? <==> MetabolismRate(age, weight) == 0.0
    ensures r.Err? ==> r.error == DivisionByZero
    ensures r.Ok? ==>
      var exact := bac / MetabolismRate(age, weight);
      exact - 0.005 <= r.value <= exact + 0.005
  {
    var rate := MetabolismRate(age, weight);
    if rate == 0.0 then Err(DivisionByZero)
    else
      RoundError(bac / rate, 100.0);
      Ok(Round2(bac / rate))
  }

  /** From 4 kg upward the floor keeps the rate positive, so the time to
      sober is always defined. */
  lemma TimeToSoberDefined(bac: real, weight: real, age: int)
    requires 4.0 <= weight
    ensures TimeToSober(bac, weight, age).Ok?
  {
    RoundMonotone(0.005, MetabolismFloor * (weight / BaselineWeight), 100.0);
    assert Round2(0.005) == 0.01;
  }

  /** The tests' examples, all at age 20 where the age factor is one. */
  lemma TimeToSoberExamples()
    ensures TimeToSober(1.0, 70.0, 20) == Ok(6.67)
    ensures TimeToSober(0.2, 60.0, 20) == Ok(1.54)
    ensures TimeToSober(0.1, 70.0, 20) == Ok(0.67)
  {
    assert AgeFactor(20) == 1.0;
    RoundOnGrid(0.15, 100.0);
    assert MetabolismRate(20, 70.0) == Round2(0.15) == 0.15;
    assert (0.15 * (60.0 / 70.0) * 100.0 + 0.5).Floor == 13;
    assert MetabolismRate(20, 60.0) == Round2(0.15 * (60.0 / 70.0)) == 0.13;
    assert (1.0 / 0.15 * 100.0 + 0.5).Floor == 667;
    assert (0.2 / 0.13 * 100.0 + 0.5).Floor == 154;
    assert (0.1 / 0.15 * 100.0 + 0.5).Floor == 67;
  }

  /** `calculate_total_alcohol_in_grams`: the per-drink contributions summed
      and rounded to two places. The contribution itself (`alcohol_grams`) is
      a parameter. */
  function TotalAlcohol(drinks: seq<Drink>, grams: Drink -> real): (r: real)
    ensures drinks == [] ==> r == 0.0
    ensures SumOf(drinks, grams) - 0.005 <= r <= SumOf(drinks, grams) + 0.005
  {
    RoundError(SumOf(drinks, grams), 100.0);
    if drinks == [] then
      RoundOnGrid(0.0, 100.0);
      Round2(SumOf(drinks, grams))
    else Round2(SumOf(drinks, grams))
  }

  /** The total does not depend on the order the drinks are listed in, so
      sorting them for display changes nothing. */
  lemma TotalAlcoholOrderFree(drinks: seq<Drink>, key: Drink -> real, grams: Drink -> real)
    ensures TotalAlcohol(SortBy(drinks, key), grams) == TotalAlcohol(drinks, grams)
  {
    SumOfSorted(drinks, key, grams);
  }
}

=== FILE: legacy.dfy ===
/** alcohol_calculator.py, the older variant of the application: its own
    catalog, an estimator with a different gender fallback, no rounding
    before the final step and an age factor applied at every age, and a
    session without history whose reset keeps the user. */
module Legacy {
  import opened Results
  import opened Rounding
  import opened Drinks
  import Users
  import opened Selection
  import opened Estimator
  import opened Views

  /** The legacy preset drinks. The first beer is written as 1000 ml, which
      is not above one litre and so keeps its unit. */
  const LegacyCatalog: seq<Drink> := [
    Drink("Bier", 1000.0, Millilitre, 6.0),
    Drink("Bier", 0.5, Litre, 5.0),
    Drink("Bier", 0.33, Litre, 5.0),
    Drink("Rotwein", 0.2, Litre, 13.0),
    Drink("Weißwein", 0.2, Litre, 11.0),
    Drink("Sekt", 100.0, Millilitre, 11.0),
    Drink("Schnaps", 4.0, Centilitre, 40.0),
    Drink("Schnaps", 2.0, Centilitre, 40.0)
  ]

  /** The catalog is what the constructor builds from the source's literals. */
  lemma LegacyCatalogBuilt()
    ensures Create("Bier", 1000.0, "ml", 6.0) == Ok(LegacyCatalog[0])
    ensures Create("Bier", 0.5, "L", 5.0) == Ok(LegacyCatalog[1])
    ensures Create("Bier", 0.33, "L", 5.0) == Ok(LegacyCatalog[2])
    ensures Create("Rotwein", 0.2, "L", 13.0) == Ok(LegacyCatalog[3])
    ensures Create("Weißwein", 0.2, "L", 11.0) == Ok(LegacyCatalog[4])
    ensures Create("Sekt", 100.0, "ml", 11.0) == Ok(LegacyCatalog[5])
    ensures Create("Schnaps", 4.0, "cl", 40.0) == Ok(LegacyCatalog[6])
    ensures Create("Schnaps", 2.0, "cl", 40.0) == Ok(LegacyCatalog[7])
  {
  }

  lemma LegacyCatalogValid()
    ensures AllValid(LegacyCatalog)
  {
    assert Valid(LegacyCatalog[0]) && Valid(LegacyCatalog[1]) && Valid(LegacyCatalog[2]) && Valid(LegacyCatalog[3]);
    assert Valid(LegacyCatalog[4]) && Valid(LegacyCatalog[5]) && Valid(LegacyCatalog[6]) && Valid(LegacyCatalog[7]);
  }

  lemma CatalogDrinkValid(d: Drink)
    requires d in LegacyCatalog
    ensures Valid(d)
  {
    LegacyCatalogValid();
  }

  /** `REDUCTION_FACTOR.get(gender, 1)`: 0.7 and 0.6 for the two known
      genders, one for every other string. */
  function LegacyGenderFactor(gender: string): (r: real)
    ensures gender == "male" ==> r == 0.7
    ensures gender == "female" ==> r == 0.6
    ensures gender != "male" && gender != "female" ==> r == 1.0
  {
    if gender == "male" then 0.7 else if gender == "female" then 0.6 else 1.0
  }

  /** The unrounded age factor: one up to age 20, then one thousandth less
      per year. */
  function LegacyAgeFactor(age: int): (r: real)
    ensures age <= 20 ==> r == 1.0
    ensures 0 <= age <= 150 ==> 0.87 <= r <= 1.0
    ensures age > 20 ==> r == 1.0 - (age - 20) as real / 1000.0
  {
    if age > 20 then 1.0 - (age - 20) as real * 0.001 else 1.0
  }

  /** Legacy `calculate_bac`: absorbed alcohol over weight times reduction
      factor, rounded once to three places. */
  function LegacyBac(weight: real, gender: string, age: int, total: real): (r: Result<real>)
    ensures r.Err? <==> weight * LegacyGenderFactor(gender) * LegacyAgeFactor(age) == 0.0
    ensures 0 <= age <= 150 ==> (r.Err? <==> weight == 0.0)
    ensures r.Err? ==> r.error == DivisionByZero
    ensures r.Ok? ==>
      var exact := total * AbsorptionRate / (weight * (LegacyGenderFactor(gender) * LegacyAgeFactor(age)));
      exact - 0.0005 <= r.value <= exact + 0.0005
  {
    var denominator := weight * (LegacyGenderFactor(gender) * LegacyAgeFactor(age));
    if denominator == 0.0 then Err(DivisionByZero)
    else
      RoundError(total * AbsorptionRate / denominator, 1000.0);
      Ok(Round3(total * AbsorptionRate / denominator))
  }

  /** More alcohol never lowers the legacy estimate, for any weight a User
      accepts. */
  lemma LegacyBacMonotone(weight: real, gender: string, age: int, t1: real, t2: real)
    requires 0.0 < weight && 0 <= age <= 150
    requires t1 <= t2
    ensures LegacyBac(weight, gender, age, t1).value <= LegacyBac(weight, gender, age, t2).value
  {
    var d := weight * (LegacyGenderFactor(gender) * LegacyAgeFactor(age));
    assert d > 0.0;
    var a1, a2 := t1 * AbsorptionRate, t2 * AbsorptionRate;
    DivideMonotone(a1, a2, d);
    RoundMonotone(a1 / d, a2 / d, 1000.0);
  }

  /** For a gender other than the two known ones the variants disagree: the
      legacy factor is one where main.py uses 0.7. */
  lemma GenderFallbackDiffers()
    ensures LegacyBac(70.0, "other", 20, 40.0) == Ok(0.486)
    ensures Bac(70.0, "other", 20, 40.0) == Ok(0.694)
  {
    RoundOnGrid(34.0, 100.0);
  }

  /** For the two known genders up to age 20 the variants agree whenever the
      absorbed alcohol is already on the two-place grid. */
  lemma VariantsAgreeWhenYoung(weight: real, gender: string, age: int, total: real)
    requires gender == "male" || gender == "female"
    requires age <= 20 && weight != 0.0
    requires ((total * AbsorptionRate) * 100.0).Floor as real == (total * AbsorptionRate) * 100.0
    ensures LegacyBac(weight, gender, age, total) == Bac(weight, gender, age, total)
  {
    RoundOnGrid(total * AbsorptionRate, 100.0);
    var gf := LegacyGenderFactor(gender);
    assert GenderFactor(gender) == gf && gf > 0.0;
    assert AgeFactor(age) == LegacyAgeFactor(age) == 1.0;
    assert ReductionFactor(gender, age) == gf;
    var d := weight * gf;
    assert d != 0.0;
    assert weight * (gf * LegacyAgeFactor(age)) == d;
    assert LegacyAgeFactor(age) == 1.0;
    assert weight * (gf * LegacyAgeFactor(age)) != 0.0;
    assert LegacyBac(weight, gender, age, total).Ok?;
    assert LegacyBac(weight, gender, age, total).value == Round3(total * AbsorptionRate / (weight * (gf * LegacyAgeFactor(age))));
    assert LegacyBac(weight, gender, age, total) == Ok(Round3(total * AbsorptionRate / d));
    assert Bac(weight, gender, age, total) == Ok(Round3(Round2(total * AbsorptionRate) / d));
  }

  /** Legacy hourly rate before the weight: 0.15 scaled by one minus a
      thousandth per year from 20 (at every age, so it rises above 0.15
      below 20), floored at 0.10. */
  function LegacyHourlyRate(age: int): (r: real)
    ensures r >= MetabolismFloor
    ensures age < 20 ==> r > MetabolismPerHour
    ensures age >= 20 ==> r <= MetabolismPerHour
  {
    Max(MetabolismFloor, MetabolismPerHour * (1.0 - (age - 20) as real * 0.001))
  }

  /** The hourly rate scaled by weight over 70 kg, not rounded; the floor
      keeps it positive for every positive weight. */
  function LegacyMetabolismRate(age: int, weight: real): (r: real)
    ensures weight > 0.0 ==> r >= MetabolismFloor * (weight / BaselineWeight)
    ensures weight > 0.0 ==> r > 0.0
    ensures weight == 0.0 ==> r == 0.0
  {
    if weight > 0.0 then
      assert weight / BaselineWeight > 0.0 by {
        assert BaselineWeight == 70.0;
      }
      ScaleMonotone(weight / BaselineWeight, MetabolismFloor, LegacyHourlyRate(age));
      LegacyHourlyRate(age) * (weight / BaselineWeight)
    else LegacyHourlyRate(age) * (weight / BaselineWeight)
  }

  /** Below age 20 the legacy rate is above the 0.15 per hour that main.py
      uses there, because the age adjustment is applied at every age. */
  lemma LegacyRateFasterWhenYoung(age: int, weight: real)
    requires age < 20 && weight > 0.0
    ensures LegacyMetabolismRate(age, weight) > MetabolismPerHour * (weight / BaselineWeight)
    ensures Max(MetabolismFloor, MetabolismPerHour * AgeFactor(age)) == MetabolismPerHour
  {
    assert weight / BaselineWeight > 0.0 by {
      assert BaselineWeight == 70.0;
    }
    ScaleStrict(weight / BaselineWeight, MetabolismPerHour, LegacyHourlyRate(age));
  }

  /** Legacy `calculate_time_to_sober`: BAC over the rate, rounded to two
      places; only a zero weight makes the rate zero. */
  function LegacyTimeToSober(bac: real, weight: real, age: int): (r: Result<real>)
    ensures weight >= 0.0 ==> (r.Err? <==> weight == 0.0)
    ensures r.Err? ==> r.error == DivisionByZero
    ensures r.Ok? ==>
      var exact := bac / LegacyMetabolismRate(age, weight);
      exact - 0.005 <= r.value <= exact + 0.005
  {
    var rate := LegacyMetabolismRate(age, weight);
    if rate == 0.0 then Err(DivisionByZero)
    else
      RoundError(bac / rate, 100.0);
      Ok(Round2(bac / rate))
  }

  /** The tests' examples at age 20, where the legacy rate is 0.15 scaled by
      weight. */
  lemma LegacyTimeToSoberExamples()
    ensures LegacyTimeToSober(1.0, 70.0, 20) == Ok(6.67)
    ensures LegacyTimeToSober(0.1, 70.0, 20) == Ok(0.67)
  {
  }

  /** One drink's alcohol in the legacy total: litres times percentage times
      0.789. */
  function Contribution(d: Drink): real
  {
    Liters(d) * d.alcohol * 0.789
  }

  /** Legacy `calculate_total_alcohol`: the sum of the contributions, not
      rounded. */
  function LegacyTotalAlcohol(drinks: seq<Drink>): (r: real)
    ensures drinks == [] ==> r == 0.0
  {
    SumOf(drinks, Contribution)
  }

  lemma ContributionNonNegative(d: Drink)
    requires Valid(d)
    ensures Contribution(d) >= 0.0
  {
    var x, a := Liters(d), d.alcohol;
    assert x >= 0.0 && a >= 0.0;
    ScaleMonotone(x, 0.0, a);
    ScaleMonotone(0.789, 0.0, x * a);
  }

  /** Constructed drinks contribute nothing negative, so the total is never
      negative. */
  lemma {:induction false} LegacyTotalNonNegative(drinks: seq<Drink>)
    requires AllValid(drinks)
    ensures LegacyTotalAlcohol(drinks) >= 0.0
  {
    if drinks != [] {
      ContributionNonNegative(drinks[0]);
      assert AllValid(drinks[1..]) by {
        forall i | 0 <= i < |drinks[1..]|
          ensures Valid(drinks[1..][i])
        {
          assert drinks[1..][i] == drinks[i + 1];
        }
      }
      LegacyTotalNonNegative(drinks[1..]);
      assert SumOf(drinks, Contribution) == Contribution(drinks[0]) + SumOf(drinks[1..], Contribution);
    }
  }

  /** The session of the legacy app: the last calculating user, the catalog
      drinks picked and the custom drinks. */
  datatype LegacyLedger = LegacyLedger(user: Option<Users.User>, selected: seq<Drink>, custom: seq<Drink>)

  predicate Inv(l: LegacyLedger)
  {
    AllValid(l.selected) && AllValid(l.custom) && (l.user.Some? ==> Users.Valid(l.user.value))
  }

  /** `get_combined_drinks` over this session. */
  function LegacyCombined(l: LegacyLedger): seq<Drink>
  {
    Combine(l.selected, l.custom)
  }

  /** Sorting does not change the total. */
  lemma LegacyTotalOrderFree(l: LegacyLedger)
    ensures LegacyTotalAlcohol(LegacyCombined(l)) == LegacyTotalAlcohol(l.selected + l.custom)
  {
    SumOfSorted(l.selected + l.custom, Liters, Contribution);
  }

  /** Legacy `add_drink`: the token is looked up in the catalog only, the
      first drink displaying as it being taken; an unknown token changes
      nothing; otherwise that drink is appended to the picked drinks. */
  function LegacyAddDrink(l: LegacyLedger, token: string, fmt: NumberFormat): (r: Result<LegacyLedger>)
    ensures r.Err? <==> forall i :: 0 <= i < |LegacyCatalog| ==> Display(LegacyCatalog[i], fmt) != token
    ensures r.Err? ==> r.error == NotFound
    ensures r.Ok? ==> var found := FirstMatch(LegacyCatalog, token, Show(fmt));
      found.Some? && r.value.selected == l.selected + [found.value]
    ensures r.Ok? ==> r.value.custom == l.custom && r.value.user == l.user
    ensures r.Ok? && Inv(l) ==> Inv(r.value)
  {
    match FirstMatch(LegacyCatalog, token, Show(fmt))
    case None => Err(NotFound)
    case Some(d) =>
      assert Inv(l) ==> Inv(l.(selected := l.selected + [d])) by {
        if Inv(l) {
          CatalogDrinkValid(d);
          AllValidAppend(l.selected, d);
        }
      }
      Ok(l.(selected := l.selected + [d]))
  }

  /** `user_drinks.remove(d)`: the first picked drink structurally equal to
      d goes; a drink that was not picked is the ValueError of `list.remove`. */
  function RemovePicked(l: LegacyLedger, d: Drink): (r: Result<LegacyLedger>)
    ensures r.Ok? <==> d in l.selected
    ensures r.Err? ==> r.error == NotInSelection
    ensures r.Ok? ==> multiset(r.value.selected) == multiset(l.selected) - multiset{d}
    ensures r.Ok? ==> exists i :: (0 <= i < |l.selected| && l.selected[i] == d && d !in l.selected[..i]
                                   && r.value.selected == l.selected[..i] + l.selected[i + 1..])
    ensures r.Ok? ==> r.value.custom == l.custom && r.value.user == l.user
    ensures r.Ok? && Inv(l) ==> Inv(r.value)
  {
    match RemoveFirst(l.selected, d)
    case None => Err(NotInSelection)
    case Some(rest) =>
      assert AllValid(l.selected) ==> AllValid(rest) by {
        if AllValid(l.selected) {
          AllValidSubset(l.selected, rest);
        }
      }
      Ok(l.(selected := rest))
  }

  /** Legacy `remove_drink`: the token is looked up in the catalog only and
      the drink found is removed from the picked drinks. */
  function LegacyRemoveDrink(l: LegacyLedger, token: string, fmt: NumberFormat): (r: Result<LegacyLedger>)
    ensures var found := FirstMatch(LegacyCatalog, token, Show(fmt));
      && (found.None? ==> r == Err(NotFound))
      && (found.Some? ==> r == RemovePicked(l, found.value))
    ensures r.Ok? <==> exists i :: 0 <= i < |LegacyCatalog| && Display(LegacyCatalog[i], fmt) == token
                                   && FirstMatch(LegacyCatalog, token, Show(fmt)).value in l.selected
  {
    match FirstMatch(LegacyCatalog, token, Show(fmt))
    case None => Err(NotFound)
    case Some(d) => RemovePicked(l, d)
  }

  /** Legacy `add_custom_drink`: all or nothing, the drink being built
      before the session changes; a missing unit defaults to ml. */
  function LegacyAddCustomDrink(l: LegacyLedger, name: string, alcohol: Option<real>, volume: Option<real>,
                                unit: Option<string>): (r: Result<LegacyLedger>)
    ensures alcohol.None? || volume.None? ==> r == Err(NotANumber)
    ensures alcohol.Some? && volume.Some? ==>
      var built := Create(name, volume.value, if unit.Some? then unit.value else "ml", alcohol.value);
      && (built.Err? ==> r == Err(built.error))
      && (built.Ok? ==> r == Ok(l.(custom := l.custom + [built.value])))
    ensures r.Ok? && Inv(l) ==> Inv(r.value)
  {
    if alcohol.None? || volume.None? then Err(NotANumber)
    else
      match Create(name, volume.value, if unit.Some? then unit.value else "ml", alcohol.value)
      case Err(e) => Err(e)
      case Ok(d) => Ok(l.(custom := l.custom + [d]))
  }

  /** Legacy `calculate`: the same form handling and order of checks as
      main.py, over the legacy total, BAC and time to sober. */
  function LegacyCalculate(l: LegacyLedger, weight: Field<real>, gender: Option<string>, age: Field<int>,
                           fmt: NumberFormat): (r: (Outcome, LegacyLedger))
    ensures var u := Users.FromForm(weight, gender, age);
      && (r.0 == InvalidInput <==> u.Err?)
      && (u.Err? ==> r.1 == l)
      && (u.Ok? ==> r.1 == l.(user := Some(u.value)))
      && (r.0 == NoDrinks <==> u.Ok? && l.selected + l.custom == [])
      && (r.0 == CalculationError <==> u.Ok? && l.selected + l.custom != [] && u.value.weight == 0.0)
    ensures r.0.Estimate? ==>
      var u := Users.FromForm(weight, gender, age).value;
      var total := LegacyTotalAlcohol(l.selected + l.custom);
      && r.0.bac == LegacyBac(u.weight, u.gender, u.age, total).value
      && r.0.hours == LegacyTimeToSober(r.0.bac, u.weight, u.age).value
      && r.0.drinks == DrinkSummary(l.selected, l.custom, fmt)
  {
    match Users.FromForm(weight, gender, age)
    case Err(_) => (InvalidInput, l)
    case Ok(u) =>
      assert Users.Valid(u);
      var next := l.(user := Some(u));
      // storing the user leaves the drink lists as they were
      var drinks := LegacyCombined(l);
      CombineMembers(l.selected, l.custom);
      if drinks == [] then (NoDrinks, next)
      else
        var total := LegacyTotalAlcohol(drinks);
        LegacyTotalOrderFree(l);
        match LegacyBac(u.weight, u.gender, u.age, total)
        case Err(_) => (CalculationError, next)
        case Ok(bac) =>
          match LegacyTimeToSober(bac, u.weight, u.age)
          case Err(_) => (CalculationError, next)
          case Ok(hours) => (Estimate(bac, hours, DrinkSummary(l.selected, l.custom, fmt)), next)
  }

  /** Legacy `reset`: empties picked and custom drinks and keeps the user,
      since clearing the whole session is commented out. */
  function LegacyReset(l: LegacyLedger): (r: LegacyLedger)
    ensures r.selected == [] && r.custom == []
    ensures r.user == l.user
    ensures Inv(l) ==> Inv(r)
  {
    l.(selected := [], custom := [])
  }

  /** After a reset, calculating gives the "no drinks" answer for any valid
      form, and the user stays in the session. */
  lemma LegacyResetLeavesNoDrinks(l: LegacyLedger, weight: Field<real>, gender: Option<string>, age: Field<int>,
                                  fmt: NumberFormat)
    requires Users.FromForm(weight, gender, age).Ok?
    ensures LegacyCalculate(LegacyReset(l), weight, gender, age, fmt).0 == NoDrinks
  {
  }

  /** Scenario: adding a catalog drink by its display string and removing it
      with the same string succeeds both times and restores the picked
      drinks as a multiset. */
  lemma LegacyAddThenRemove(l: LegacyLedger, i: nat, fmt: NumberFormat)
    requires i < |LegacyCatalog|
    ensures var token := Display(LegacyCatalog[i], fmt);
      && LegacyAddDrink(l, token, fmt).Ok?
      && var added := LegacyAddDrink(l, token, fmt).value;
      && LegacyRemoveDrink(added, token, fmt).Ok?
      && multiset(LegacyRemoveDrink(added, token, fmt).value.selected) == multiset(l.selected)
  {
    var token := Display(LegacyCatalog[i], fmt);
    var d := FirstMatch(LegacyCatalog, token, Show(fmt)).value;
    var added := LegacyAddDrink(l, token, fmt).value;
    assert added.selected == l.selected + [d];
    assert d in added.selected;
  }

  /** The token the application test posts, "Bier (1000ml, 6%)", has no
      space between volume and unit, so it matches no catalog drink under
      any number format that prints numbers without spaces, and the legacy
      `add_drink` answers "not found". */
  lemma TestTokenUnmatched(l: LegacyLedger, fmt: NumberFormat)
    requires forall x :: ' ' !in fmt(x)
    ensures LegacyAddDrink(l, "Bier (1000ml, 6%)", fmt) == Err(NotFound)
  {
    forall i | 0 <= i < |LegacyCatalog|
      ensures Display(LegacyCatalog[i], fmt) != "Bier (1000ml, 6%)"
    {
      NotTheTestToken(LegacyCatalog[i], fmt);
    }
  }

  /** A display string has a space right after its volume text; the test
      token's only spaces are at 4 and 12, and neither fits. */
  lemma NotTheTestToken(d: Drink, fmt: NumberFormat)
    requires ' ' !in fmt(d.volume)
    ensures Display(d, fmt) != "Bier (1000ml, 6%)"
  {
    var r, t := Display(d, fmt), "Bier (1000ml, 6%)";
    var n, v, u := |d.name|, fmt(d.volume), UnitText(d.unit);
    assert r == d.name + " (" + v + " " + u + ", " + fmt(d.alcohol) + "%)";
    assert r[n] == ' ' && r[n + 1] == '(';
    if |r| == |t| {
      if n != 4 {
        assert r[n] != t[n] || r[n + 1] != t[n + 1];
      } else {
        var p := 6 + |v|;
        assert r[p] == ' ' && r[p + 1] == u[0];
        if p != 12 {
          assert r[p] != t[p];
        }
      }
    }
  }
}

=== FILE: results.dfy ===
/** Error outcomes shared by every part of the model. Each constructor stands
    for one exception the Python code raises (or one error page it renders). */
module Results {

  /** The failures the core can produce. */
  datatype Error =
    | InvalidUnit        // unit string not one of L, ml, cl
    | AlcoholOutOfRange  // alcohol percentage outside [0, 100]
    | NegativeVolume     // volume_in_liters found a negative litre value
    | VolumeOutOfRange   // litres outside [0, 50]
    | EmptyName          // name[0] on an empty name (an IndexError, not a ValueError)
    | InvalidName        // first character of the name is not upper case
    | AgeOutOfRange      // age outside [0, 150]
    | WeightOutOfRange   // weight outside [0, 500]
    | NotANumber         // float()/int() could not parse a form field
    | NotFound           // no drink displays as the submitted token
    | NotInSelection     // list.remove found no structurally equal entry
    | DivisionByZero     // a zero denominator in the estimator

  datatype Result<T> = Ok(value: T) | Err(error: Error)

  datatype Option<T> = None | Some(value: T)

  /** A form field as the request handler sees it: missing, parsed, or present
      but not parseable as a number. */
  datatype Field<T> = Absent | Given(value: T) | Malformed

  /** `float(request.form.get(key, default))` and its `int` twin: a missing
      field takes the default, an unparseable one is a ValueError. */
  function ReadField<T>(f: Field<T>, default: T): (r: Result<T>)
    ensures f.Absent? ==> r == Ok(default)
    ensures f.Given? ==> r == Ok(f.value)
    ensures r.Err? <==> f.Malformed?
  {
    match f
    case Absent => Ok(default)
    case Given(v) => Ok(v)
    case Malformed => Err(NotANumber)
  }

  /** What the calculate route renders: an error page or the estimate with
      the per-drink summary. */
  datatype Outcome =
    | InvalidInput       // the weight, gender or age did not give a valid User
    | NoDrinks           // nothing selected: no arithmetic was done
    | CalculationError   // the estimator hit a zero denominator
    | Estimate(bac: real, hours: real, drinks: map<string, nat>)
}

=== FILE: rounding.dfy ===
/** Python's `round(x, 2)` and `round(x, 3)` on exact reals, rounding half up.
    Python rounds the binary float, which at an exact decimal tie may lie on
    either side of it; the error bound below admits both neighbours, so every
    bound stated through it holds whichever way the float goes. Where the
    direction matters for the source's stated values (the age factor), the
    float itself is modelled. */
module Rounding {

  /** The integer nearest to y, ties upward. */
  function Nearest(y: real): int
  {
    (y + 0.5).Floor
  }

  /** Rounds x to the grid of multiples of 1/scale. */
  function RoundAt(x: real, scale: real): real
    requires scale > 0.0
  {
    Nearest(x * scale) as real / scale
  }

  /** `round(x, 2)` */
  function Round2(x: real): real
  {
    RoundAt(x, 100.0)
  }

  /** `round(x, 3)` */
  function Round3(x: real): real
  {
    RoundAt(x, 1000.0)
  }

  /** Multiplying by a non-negative factor keeps an order. */
  lemma ScaleMonotone(a: real, b: real, c: real)
    requires 0.0 <= a && b <= c
    ensures a * b <= a * c && b * a <= c * a
  {
    assert a * c - a * b == a * (c - b);
    assert c * a - b * a == (c - b) * a;
  }

  lemma ScaleStrict(a: real, b: real, c: real)
    requires 0.0 < a && b < c
    ensures b * a < c * a
  {
    assert c * a - b * a == (c - b) * a;
  }

  /** Dividing by a positive number keeps an order. */
  lemma DivideMonotone(a: real, b: real, d: real)
    requires 0.0 < d && a <= b
    ensures a / d <= b / d
  {
  }

  /** A bounded non-negative value scaled by a fraction stays in bounds. */
  lemma ProductWithin(a: real, b: real, hi: real)
    requires 0.0 <= a <= hi && 0.0 <= b <= 1.0
    ensures 0.0 <= a * b <= hi
  {
    ScaleMonotone(a, 0.0, b);
    ScaleMonotone(a, b, 1.0);
  }

  /** Rounding moves a value by at most half a grid step. */
  lemma RoundError(x: real, scale: real)
    requires scale > 0.0
    ensures x - 0.5 / scale <= RoundAt(x, scale) <= x + 0.5 / scale
  {
    var f := Nearest(x * scale) as real;
    assert x * scale - 0.5 < f <= x * scale + 0.5;
    assert f / scale - x == (f - x * scale) / scale;
  }

  /** Rounding never reverses the order of two values. */
  lemma RoundMonotone(x: real, y: real, scale: real)
    requires scale > 0.0 && x <= y
    ensures RoundAt(x, scale) <= RoundAt(y, scale)
  {
    assert x * scale <= y * scale;
    assert Nearest(x * scale) <= Nearest(y * scale);
    var a := Nearest(x * scale) as real;
    var b := Nearest(y * scale) as real;
    assert b / scale - a / scale == (b - a) / scale;
  }

  /** A value already on the grid is left alone. */
  lemma RoundOnGrid(y: real, scale: real)
    requires scale > 0.0
    requires (y * scale).Floor as real == y * scale
    ensures RoundAt(y, scale) == y
  {
    var m := (y * scale).Floor;
    assert (m as real + 0.5).Floor == m;
    assert Nearest(y * scale) == m;
    assert m as real / scale == y;
  }

  /** Rounding a non-negative value gives a non-negative value. */
  lemma RoundNonNegative(x: real, scale: real)
    requires scale > 0.0 && x >= 0.0
    ensures RoundAt(x, scale) >= 0.0
  {
    RoundMonotone(0.0, x, scale);
    RoundOnGrid(0.0, scale);
  }

  /** Rounding a value that lies between two grid points keeps it there. */
  lemma RoundBetween(x: real, lo: real, hi: real, scale: real)
    requires scale > 0.0 && lo <= x <= hi
    requires (lo * scale).Floor as real == lo * scale
    requires (hi * scale).Floor as real == hi * scale
    ensures lo <= RoundAt(x, scale) <= hi
  {
    RoundMonotone(lo, x, scale);
    RoundMonotone(x, hi, scale);
    RoundOnGrid(lo, scale);
    RoundOnGrid(hi, scale);
  }
}

=== FILE: routes.dfy ===
/** The session state of main.py's route handlers, lifted into an explicit
    Ledger value: each route is a function from the ledger (and the form
    fields) to a new ledger or an error that leaves it untouched. The clock
    is a parameter: the formatted time and the timestamp of a history entry
    are passed in. */
module Routes {
  import opened Results
  import opened Rounding
  import opened Drinks
  import Users
  import opened Selection
  import opened Estimator
  import opened Views

  /** One line of the drink history: display string, formatted time and
      numeric timestamp. */
  datatype HistoryEntry = HistoryEntry(drink: string, time: string, timestamp: real)

  /** The test `remove_drink` keeps history entries by: another drink. */
  function NotDrink(drink: string): HistoryEntry -> bool
  {
    (e: HistoryEntry) => e.drink != drink
  }

  /** The test `remove_history_entry` keeps entries by: another drink or
      another time. */
  function NotEntry(drink: string, time: string): HistoryEntry -> bool
  {
    (e: HistoryEntry) => e.drink != drink || e.time != time
  }

  /** The session: the last calculating user, the catalog drinks picked, the
      custom drinks, and the history. */
  datatype Ledger = Ledger(
    user: Option<Users.User>,
    selected: seq<Drink>,
    custom: seq<Drink>,
    history: seq<HistoryEntry>)

  /** Everything in the session went through a constructor. */
  predicate Inv(l: Ledger)
  {
    AllValid(l.selected) && AllValid(l.custom) && (l.user.Some? ==> Users.Valid(l.user.value))
  }

  const Empty: Ledger := Ledger(None, [], [], [])

  /** The preset drinks, `DRINKS`, in their constructed form. */
  const Catalog: seq<Drink> := [
    Drink("Bier", 1.0, Litre, 6.0),
    Drink("Bier", 0.5, Litre, 5.0),
    Drink("Bier", 0.33, Litre, 5.0),
    Drink("Rotwein", 0.2, Litre, 13.0),
    Drink("Weißwein", 0.2, Litre, 11.0),
    Drink("Sekt", 100.0, Millilitre, 11.0),
    Drink("Schnaps", 4.0, Centilitre, 40.0),
    Drink("Schnaps", 2.0, Centilitre, 40.0)
  ]

  /** Each catalog entry is what the constructor builds from the literal in
      the source (volume defaulting to 0.5 and unit to L). */
  lemma CatalogBuilt()
    ensures Create("Bier", 1.0, "L", 6.0) == Ok(Catalog[0])
    ensures Create("Bier", 0.5, "L", 5.0) == Ok(Catalog[1])
    ensures Create("Bier", 0.33, "L", 5.0) == Ok(Catalog[2])
    ensures Create("Rotwein", 0.2, "L", 13.0) == Ok(Catalog[3])
    ensures Create("Weißwein", 0.2, "L", 11.0) == Ok(Catalog[4])
    ensures Create("Sekt", 100.0, "ml", 11.0) == Ok(Catalog[5])
    ensures Create("Schnaps", 4.0, "cl", 40.0) == Ok(Catalog[6])
    ensures Create("Schnaps", 2.0, "cl", 40.0) == Ok(Catalog[7])
  {
  }

  lemma CatalogValid()
    ensures AllValid(Catalog)
  {
    assert Valid(Catalog[0]) && Valid(Catalog[1]) && Valid(Catalog[2]) && Valid(Catalog[3]);
    assert Valid(Catalog[4]) && Valid(Catalog[5]) && Valid(Catalog[6]) && Valid(Catalog[7]);
  }

  /** `get_combined_drinks` over this session. */
  function Combined(l: Ledger): seq<Drink>
  {
    Combine(l.selected, l.custom)
  }

  /** The pool `add_drink` and `remove_drink` resolve tokens against: the
      catalog together with the combined drinks. */
  function Pool(l: Ledger): seq<Drink>
  {
    Catalog + Combined(l)
  }

  /** Every drink a lookup can find went through a constructor. */
  lemma PoolValid(l: Ledger, d: Drink)
    requires Inv(l) && d in Pool(l)
    ensures Valid(d)
  {
    var i :| 0 <= i < |Pool(l)| && Pool(l)[i] == d;
    if i < |Catalog| {
      CatalogValid();
      assert d == Catalog[i];
    } else {
      CombineValid(l.selected, l.custom);
      assert d == Combined(l)[i - |Catalog|];
    }
  }

  /** `add_drink`: an unknown token changes nothing; otherwise the resolved
      drink is appended to the picked drinks and a history entry carrying
      its display string (the token) is appended too. */
  function AddDrink(l: Ledger, token: string, found: Option<Drink>, time: string, timestamp: real, fmt: NumberFormat): (r: Result<Ledger>)
    requires IsLookup(Pool(l), token, Show(fmt), found)
    ensures r.Err? <==> forall i :: 0 <= i < |Pool(l)| ==> Display(Pool(l)[i], fmt) != token
    ensures r.Err? ==> r.error == NotFound
    ensures r.Ok? ==> exists d :: d in Pool(l) && Display(d, fmt) == token && r.value.selected == l.selected + [d]
    ensures r.Ok? ==> r.value.history == l.history + [HistoryEntry(token, time, timestamp)]
    ensures r.Ok? ==> r.value.custom == l.custom && r.value.user == l.user
    ensures r.Ok? && Inv(l) ==> Inv(r.value)
  {
    match found
    case None => Err(NotFound)
    case Some(d) =>
      assert Inv(l) ==> Valid(d) by {
        if Inv(l) {
          PoolValid(l, d);
        }
      }
      Ok(l.(selected := l.selected + [d], history := l.history + [HistoryEntry(Display(d, fmt), time, timestamp)]))
  }

  /** `remove_drink`: an unknown token changes nothing; a drink that is not
      among the picked drinks is an error (the ValueError of `list.remove`)
      before the history is touched; otherwise the first structurally equal
      picked drink goes, and so does every history entry with its display
      string. */
  function RemoveDrink(l: Ledger, token: string, found: Option<Drink>, fmt: NumberFormat): (r: Result<Ledger>)
    requires IsLookup(Pool(l), token, Show(fmt), found)
    ensures found.None? ==> r == Err(NotFound)
    ensures found.Some? && found.value !in l.selected ==> r == Err(NotInSelection)
    ensures r.Ok? <==> found.Some? && found.value in l.selected
    ensures r.Ok? ==> multiset(r.value.selected) == multiset(l.selected) - multiset{found.value}
    ensures r.Ok? ==> exists i :: (0 <= i < |l.selected| && l.selected[i] == found.value && found.value !in l.selected[..i]
                                   && r.value.selected == l.selected[..i] + l.selected[i + 1..])
    ensures r.Ok? ==> r.value.history == Filter(l.history, NotDrink(token))
    ensures r.Ok? ==> forall e :: e in r.value.history <==> e in l.history && e.drink != token
    ensures r.Ok? ==> r.value.custom == l.custom && r.value.user == l.user
    ensures r.Ok? && Inv(l) ==> Inv(r.value)
  {
    match found
    case None => Err(NotFound)
    case Some(d) =>
      match RemoveFirst(l.selected, d)
      case None => Err(NotInSelection)
      case Some(rest) =>
        assert AllValid(l.selected) ==> AllValid(rest) by {
          if AllValid(l.selected) {
            AllValidSubset(l.selected, rest);
          }
        }
        Ok(l.(selected := rest, history := Filter(l.history, NotDrink(Display(d, fmt)))))
  }

  /** `add_custom_drink`: the drink is built from the form first; an
      unparseable number or a failed construction leaves the session as it
      was. A missing unit defaults to ml. */
  function AddCustomDrink(l: Ledger, name: string, alcohol: Option<real>, volume: Option<real>, unit: Option<string>,
                          time: string, timestamp: real, fmt: NumberFormat): (r: Result<Ledger>)
    ensures alcohol.None? || volume.None? ==> r == Err(NotANumber)
    ensures alcohol.Some? && volume.Some? ==>
      var built := Create(name, volume.value, if unit.Some? then unit.value else "ml", alcohol.value);
      && (built.Err? ==> r == Err(built.error))
      && (built.Ok? ==> (r.Ok? && r.value.custom == l.custom + [built.value]
                         && r.value.history == l.history + [HistoryEntry(Display(built.value, fmt), time, timestamp)]))
    ensures r.Ok? ==> r.value.selected == l.selected && r.value.user == l.user
    ensures r.Ok? && Inv(l) ==> Inv(r.value)
  {
    if alcohol.None? || volume.None? then Err(NotANumber)
    else
      match Create(name, volume.value, if unit.Some? then unit.value else "ml", alcohol.value)
      case Err(e) => Err(e)
      case Ok(d) =>
        Ok(l.(custom := l.custom + [d], history := l.history + [HistoryEntry(Display(d, fmt), time, timestamp)]))
  }

  /** `remove_history_entry`: keeps exactly the entries whose drink or time
      differs from the given pair, in their order; nothing else changes. */
  function RemoveHistoryEntry(l: Ledger, drink: string, time: string): (r: Ledger)
    ensures r.history == Filter(l.history, NotEntry(drink, time))
    ensures forall e :: e in r.history <==> e in l.history && (e.drink != drink || e.time != time)
    ensures r.selected == l.selected && r.custom == l.custom && r.user == l.user
    ensures (forall i :: 0 <= i < |l.history| ==> l.history[i].drink != drink || l.history[i].time != time) ==> r == l
  {
    var keep := NotEntry(drink, time);
    if forall i :: 0 <= i < |l.history| ==> keep(l.history[i]) then
      FilterKeepsAll(l.history, keep);
      l.(history := Filter(l.history, keep))
    else l.(history := Filter(l.history, keep))
  }

  /** Removing the same history entry twice is removing it once. */
  lemma RemoveHistoryEntryIdempotent(l: Ledger, drink: string, time: string)
    ensures RemoveHistoryEntry(RemoveHistoryEntry(l, drink, time), drink, time) == RemoveHistoryEntry(l, drink, time)
  {
    FilterIdempotent(l.history, NotEntry(drink, time));
  }

  /** Removal keeps the order of the history: removing from a history that
      grew by one entry is removing from the old history and then keeping
      the new entry at the end unless it is the one removed. */
  lemma {:induction false} RemoveHistoryEntryKeepsOrder(l: Ledger, e: HistoryEntry, drink: string, time: string)
    ensures RemoveHistoryEntry(l.(history := l.history + [e]), drink, time).history
         == RemoveHistoryEntry(l, drink, time).history + (if e.drink != drink || e.time != time then [e] else [])
  {
    var keep := NotEntry(drink, time);
    FilterConcat(l.history, [e], keep);
    assert Filter([e], keep) == (if keep(e) then [e] else []) + Filter([e][1..], keep);
  }

  /** `reset_history`: empties picked drinks, custom drinks and history, and
      keeps the user. */
  function ResetHistory(l: Ledger): (r: Ledger)
    ensures r.selected == [] && r.custom == [] && r.history == []
    ensures r.user == l.user
    ensures Inv(l) ==> Inv(r)
  {
    l.(selected := [], custom := [], history := [])
  }

  /** `reset`: clears the whole session, the user included. */
  function Reset(l: Ledger): (r: Ledger)
    ensures r == Empty
  {
    Ledger(None, [], [], [])
  }

  /** `calculate` as intended: the form's user is stored in the session,
      then the "no drinks" check comes before any arithmetic, then total
      alcohol, BAC and time to sober follow, any zero denominator giving the
      calculation error page. An invalid form leaves the session alone. The
      per-drink contribution `grams` stands for `alcohol_grams`, which main.py
      calls but Drink does not define; `CalculateAsWritten` is the route as
      it runs without it. */
  function Calculate(l: Ledger, weight: Field<real>, gender: Option<string>, age: Field<int>,
                     fmt: NumberFormat, grams: Drink -> real): (r: (Outcome, Ledger))
    ensures var u := Users.FromForm(weight, gender, age);
      && (r.0 == InvalidInput <==> u.Err?)
      && (u.Err? ==> r.1 == l)
      && (u.Ok? ==> r.1 == l.(user := Some(u.value)))
      && (r.0 == NoDrinks <==> u.Ok? && l.selected + l.custom == [])
      && (r.0 == CalculationError <==>
            u.Ok? && l.selected + l.custom != [] &&
            (u.value.weight == 0.0 || MetabolismRate(u.value.age, u.value.weight) == 0.0))
    ensures r.0.Estimate? ==>
      var u := Users.FromForm(weight, gender, age).value;
      var total := TotalAlcohol(l.selected + l.custom, grams);
      && r.0.bac == Bac(u.weight, u.gender, u.age, total).value
      && r.0.hours == TimeToSober(r.0.bac, u.weight, u.age).value
      && r.0.drinks == DrinkSummary(l.selected, l.custom, fmt)
  {
    match Users.FromForm(weight, gender, age)
    case Err(_) => (InvalidInput, l)
    case Ok(u) =>
      var next := l.(user := Some(u));
      // storing the user leaves the drink lists as they were
      var drinks := Combine(l.selected, l.custom);
      CombineMembers(l.selected, l.custom);
      if drinks == [] then (NoDrinks, next)
      else
        var total := TotalAlcohol(drinks, grams);
        TotalAlcoholOrderFree(l.selected + l.custom, Liters, grams);
        match Bac(u.weight, u.gender, u.age, total)
        case Err(_) => (CalculationError, next)
        case Ok(bac) =>
          match TimeToSober(bac, u.weight, u.age)
          case Err(_) => (CalculationError, next)
          case Ok(hours) => (Estimate(bac, hours, DrinkSummary(l.selected, l.custom, fmt)), next)
  }

  /** `calculate` as main.py is written: `calculate_total_alcohol_in_grams`
      calls `alcohol_grams` on every drink, Drink has no such method, and the
      AttributeError is caught by the route's `except Exception`. So once the
      user is valid and any drink is picked, the answer is the calculation
      error page, and no estimate is ever shown. */
  function CalculateAsWritten(l: Ledger, weight: Field<real>, gender: Option<string>, age: Field<int>): (r: (Outcome, Ledger))
    ensures var u := Users.FromForm(weight, gender, age);
      && (r.0 == InvalidInput <==> u.Err?)
      && (u.Err? ==> r.1 == l)
      && (u.Ok? ==> r.1 == l.(user := Some(u.value)))
      && (r.0 == NoDrinks <==> u.Ok? && l.selected + l.custom == [])
      && (r.0 == CalculationError <==> u.Ok? && l.selected + l.custom != [])
    ensures !r.0.Estimate?
  {
    match Users.FromForm(weight, gender, age)
    case Err(_) => (InvalidInput, l)
    case Ok(u) =>
      var next := l.(user := Some(u));
      var drinks := Combine(l.selected, l.custom);
      CombineMembers(l.selected, l.custom);
      if drinks == [] then (NoDrinks, next)
      else (CalculationError, next)
  }

  /** The two differ exactly where the intended route gives an estimate:
      there the route as written shows the calculation error instead. */
  lemma AsWrittenHidesEstimates(l: Ledger, weight: Field<real>, gender: Option<string>, age: Field<int>,
                                fmt: NumberFormat, grams: Drink -> real)
    ensures CalculateAsWritten(l, weight, gender, age).1 == Calculate(l, weight, gender, age, fmt, grams).1
    ensures var c := Calculate(l, weight, gender, age, fmt, grams).0;
      CalculateAsWritten(l, weight, gender, age).0 == (if c.Estimate? then CalculationError else c)
  {
  }

  /** One half-litre beer and the default form (70 kg, male, 20 years): the
      intended route estimates, whatever the contribution, while the route
      as written shows the calculation error. */
  lemma OneBeerIsNeverEstimated(fmt: NumberFormat, grams: Drink -> real)
    ensures Calculate(Ledger(None, [Catalog[1]], [], []), Absent, None, Absent, fmt, grams).0.Estimate?
    ensures CalculateAsWritten(Ledger(None, [Catalog[1]], [], []), Absent, None, Absent).0 == CalculationError
  {
    var u := Users.FromForm(Absent, None, Absent);
    assert u == Ok(Users.User("User", 20, "male", 70.0));
    TimeToSoberDefined(0.0, 70.0, 20);
    assert MetabolismRate(20, 70.0) != 0.0;
  }

  /** Scenario: a drink that was added can be removed again with the same
      lookup, which restores the picked drinks as a multiset and drops the
      history entries of that drink. */
  lemma AddThenRemove(l: Ledger, token: string, d: Drink, time: string, timestamp: real, fmt: NumberFormat)
    requires IsLookup(Pool(l), token, Show(fmt), Some(d))
    ensures var added := AddDrink(l, token, Some(d), time, timestamp, fmt);
      && added.Ok?
      && IsLookup(Pool(added.value), token, Show(fmt), Some(d))
      && var removed := RemoveDrink(added.value, token, Some(d), fmt);
      && removed.Ok?
      && multiset(removed.value.selected) == multiset(l.selected)
      && (forall e :: e in removed.value.history ==> e.drink != token)
  {
    var added := AddDrink(l, token, Some(d), time, timestamp, fmt).value;
    assert d in added.selected;
    var i :| 0 <= i < |Pool(l)| && Pool(l)[i] == d;
    if i < |Catalog| {
      assert Pool(added)[i] == d;
    } else {
      assert d in multiset(Combine(added.selected, added.custom));
    }
    assert added.selected == l.selected + [d];
  }

  /** After either reset, calculating never produces a number: the user's
      input is rejected or there are no drinks. */
  lemma ResetLeavesNothingToCalculate(l: Ledger, weight: Field<real>, gender: Option<string>, age: Field<int>,
                                      fmt: NumberFormat, grams: Drink -> real)
    ensures Calculate(Reset(l), weight, gender, age, fmt, grams).0 in {InvalidInput, NoDrinks}
    ensures Calculate(ResetHistory(l), weight, gender, age, fmt, grams).0 in {InvalidInput, NoDrinks}
  {
  }
}

=== FILE: selection.dfy ===
/** List logic shared by both route modules (main.py and
    alcohol_calculator.py): the combined view sorted by a key, the
    per-element count summary, lookup by display token, `list.remove`, and
    sums. It is written over any element type; the route modules use it with
    drinks, litres as the sort key and the display string as the token. */
module Selection {
  import opened Results

  /** Non-increasing in key, the order `sort(key=key, reverse=True)` produces. */
  predicate SortedBy<T>(s: seq<T>, key: T -> real)
  {
    forall i, j :: 0 <= i < j < |s| ==> key(s[i]) >= key(s[j])
  }

  /** Places x before the first element whose key is not above x's, so x
      stays ahead of the elements it ties with. */
  function Insert<T>(x: T, t: seq<T>, key: T -> real): (r: seq<T>)
    requires SortedBy(t, key)
    ensures SortedBy(r, key)
    ensures multiset(r) == multiset(t) + multiset{x}
    ensures |r| == |t| + 1
  {
    if t == [] || key(t[0]) <= key(x) then [x] + t
    else
      var rest := Insert(x, t[1..], key);
      assert t == [t[0]] + t[1..];
      BelowHead(x, t, rest, key);
      [t[0]] + rest
  }

  /** The head of a sorted list has the largest key of its tail. */
  lemma HeadIsLargest<T>(t: seq<T>, key: T -> real, y: T)
    requires SortedBy(t, key) && t != [] && y in multiset(t[1..])
    ensures key(y) <= key(t[0])
  {
    assert y in t[1..];
    var k :| 0 <= k < |t[1..]| && t[1..][k] == y;
    assert t[k + 1] == y;
  }

  /** What is inserted behind the head of a sorted list stays below it. */
  lemma BelowHead<T>(x: T, t: seq<T>, rest: seq<T>, key: T -> real)
    requires SortedBy(t, key) && t != [] && key(x) < key(t[0])
    requires multiset(rest) == multiset(t[1..]) + multiset{x}
    ensures forall j :: 0 <= j < |rest| ==> key(rest[j]) <= key(t[0])
  {
    forall j | 0 <= j < |rest|
      ensures key(rest[j]) <= key(t[0])
    {
      assert rest[j] in multiset(rest);
      if rest[j] != x {
        HeadIsLargest(t, key, rest[j]);
      }
    }
  }

  /** Python's stable `sort(key=key, reverse=True)`. */
  function SortBy<T>(s: seq<T>, key: T -> real): (r: seq<T>)
    ensures SortedBy(r, key)
    ensures multiset(r) == multiset(s)
    ensures |r| == |s|
  {
    if s == [] then []
    else
      assert s == [s[0]] + s[1..];
      Insert(s[0], SortBy(s[1..], key), key)
  }

  /** The elements of s whose key is exactly k, in order. */
  function WithKey<T>(s: seq<T>, key: T -> real, k: real): seq<T>
  {
    if s == [] then []
    else (if key(s[0]) == k then [s[0]] else []) + WithKey(s[1..], key, k)
  }

  lemma {:induction false} InsertWithKey<T>(x: T, t: seq<T>, key: T -> real, k: real)
    requires SortedBy(t, key)
    ensures WithKey(Insert(x, t, key), key, k) == (if key(x) == k then [x] else []) + WithKey(t, key, k)
  {
    if t == [] || key(t[0]) <= key(x) {
      assert ([x] + t)[1..] == t;
    } else {
      var rest := Insert(x, t[1..], key);
      var r := [t[0]] + rest;
      assert r[1..] == rest;
      InsertWithKey(x, t[1..], key, k);
      var head := if key(t[0]) == k then [t[0]] else [];
      assert WithKey(r, key, k) == head + WithKey(rest, key, k);
      assert WithKey(t, key, k) == head + WithKey(t[1..], key, k);
      if key(x) == k {
        assert head == [];
      }
    }
  }

  /** The sort is stable: elements with equal keys keep their relative order.
      With SortedBy and the multiset equality this fixes the result. */
  lemma {:induction false} SortIsStable<T>(s: seq<T>, key: T -> real, k: real)
    ensures WithKey(SortBy(s, key), key, k) == WithKey(s, key, k)
  {
    if s != [] {
      SortIsStable(s[1..], key, k);
      InsertWithKey(s[0], SortBy(s[1..], key), key, k);
    }
  }

  /** `list.count(d)`: how many elements are equal to d under `same`. */
  function CountSame<T>(s: seq<T>, d: T, same: (T, T) -> bool): (r: nat)
    ensures r <= |s|
    ensures forall i :: 0 <= i < |s| && same(s[i], d) ==> r >= 1
  {
    if s == [] then 0
    else
      var rest := CountSame(s[1..], d, same);
      assert forall i :: 1 <= i < |s| ==> s[i] == s[1..][i - 1];
      if same(s[0], d) then 1 + rest else rest
  }

  /** The dict comprehension `{show(d): c.count(d) for d in c}` over the
      first n elements: its keys are exactly their tokens. */
  function SummaryOf<T, K>(c: seq<T>, n: nat, show: T -> K, same: (T, T) -> bool): map<K, nat>
    requires n <= |c|
  {
    if n == 0 then map[]
    else
      var prev := SummaryOf(c, n - 1, show, same);
      prev[show(c[n - 1]) := CountSame(c, c[n - 1], same)]
  }

  /** The keys of the summary are exactly the tokens of the elements. */
  lemma {:induction false} SummaryKeys<T, K>(c: seq<T>, n: nat, show: T -> K, same: (T, T) -> bool)
    requires n <= |c|
    ensures forall i :: 0 <= i < n ==> show(c[i]) in SummaryOf(c, n, show, same)
    ensures forall k :: k in SummaryOf(c, n, show, same) ==> exists i :: 0 <= i < n && show(c[i]) == k
  {
    if n > 0 {
      SummaryKeys(c, n - 1, show, same);
    }
  }

  /** Each value of the summary is the count of an element showing as its key. */
  lemma {:induction false} SummaryValues<T, K>(c: seq<T>, n: nat, show: T -> K, same: (T, T) -> bool, k: K)
    requires n <= |c|
    requires k in SummaryOf(c, n, show, same)
    ensures exists i :: 0 <= i < n && show(c[i]) == k && SummaryOf(c, n, show, same)[k] == CountSame(c, c[i], same)
  {
    if k != show(c[n - 1]) {
      SummaryValues(c, n - 1, show, same, k);
    }
  }

  /** A key shared by several elements takes the count of the last of them,
      as later entries of a dict comprehension overwrite earlier ones. */
  lemma {:induction false} SummaryLastWins<T, K>(c: seq<T>, n: nat, show: T -> K, same: (T, T) -> bool, i: nat)
    requires i < n <= |c|
    requires forall j :: i < j < n ==> show(c[j]) != show(c[i])
    ensures show(c[i]) in SummaryOf(c, n, show, same)
    ensures SummaryOf(c, n, show, same)[show(c[i])] == CountSame(c, c[i], same)
  {
    var prev := SummaryOf(c, n - 1, show, same);
    var last := show(c[n - 1]);
    assert SummaryOf(c, n, show, same) == prev[last := CountSame(c, c[n - 1], same)];
    if i < n - 1 {
      assert last != show(c[i]) by {
        assert i < n - 1 < n;
      }
      SummaryLastWins(c, n - 1, show, same, i);
    }
  }

  /** The summary of a whole list: one key per distinct token, each value
      between 1 and the list's length when `same` is reflexive. */
  function Summary<T(==,!new), K>(c: seq<T>, show: T -> K, same: (T, T) -> bool): (r: map<K, nat>)
    requires forall i :: 0 <= i < |c| ==> same(c[i], c[i])
    ensures forall x :: x in c ==> show(x) in r
    ensures forall k :: k in r ==> exists x :: x in c && show(x) == k
    ensures forall k :: k in r ==> 1 <= r[k] <= |c|
    ensures c == [] <==> r == map[]
  {
    var r := SummaryOf(c, |c|, show, same);
    SummaryKeys(c, |c|, show, same);
    assert forall k :: k in r ==> 1 <= r[k] <= |c| by {
      forall k | k in r
        ensures 1 <= r[k] <= |c|
      {
        SummaryValues(c, |c|, show, same, k);
      }
    }
    assert forall k :: k in r ==> exists x :: x in c && show(x) == k by {
      forall k | k in r
        ensures exists x :: x in c && show(x) == k
      {
        var i :| 0 <= i < |c| && show(c[i]) == k;
        assert c[i] in c;
      }
    }
    if c != [] then
      assert show(c[0]) in r;
      r
    else r
  }

  /** `found` is a value `next(d for d in pool if show(d) == token)` may give
      when the pool is a set, whose order is not known: None exactly when no
      element shows as the token, otherwise some element that does. */
  predicate IsLookup<T(==), K(==)>(pool: seq<T>, token: K, show: T -> K, found: Option<T>)
  {
    match found
    case None => forall i :: 0 <= i < |pool| ==> show(pool[i]) != token
    case Some(d) => d in pool && show(d) == token
  }

  /** `next(d for d in pool if show(d) == token)` over a list: the first
      element that shows as the token. It is a lookup IsLookup allows, so a
      lookup exists for every pool and token. */
  function FirstMatch<T(==), K(==)>(pool: seq<T>, token: K, show: T -> K): (r: Option<T>)
    ensures IsLookup(pool, token, show, r)
    ensures r.Some? ==>
      exists i :: 0 <= i < |pool| && pool[i] == r.value && (forall j :: 0 <= j < i ==> show(pool[j]) != token)
  {
    if pool == [] then None
    else if show(pool[0]) == token then Some(pool[0])
    else
      var r := FirstMatch(pool[1..], token, show);
      if r.Some? then
        var i :| 0 <= i < |pool[1..]| && pool[1..][i] == r.value &&
          (forall j :: 0 <= j < i ==> show(pool[1..][j]) != token);
        assert pool[i + 1] == r.value;
        assert forall j :: 1 <= j < i + 1 ==> pool[j] == pool[1..][j - 1];
        r
      else r
  }

  /** Position of the first element equal to d. */
  function IndexOf<T(==)>(s: seq<T>, d: T): (i: nat)
    requires d in s
    ensures i < |s| && s[i] == d && d !in s[..i]
  {
    if s[0] == d then 0
    else
      var i := IndexOf(s[1..], d);
      assert s[..i + 1] == [s[0]] + s[1..][..i];
      i + 1
  }

  /** `list.remove(d)`: drops the first element equal to d, or fails when
      there is none. */
  function RemoveFirst<T(==)>(s: seq<T>, d: T): (r: Option<seq<T>>)
    ensures r.None? <==> d !in s
    ensures r.Some? ==> multiset(r.value) == multiset(s) - multiset{d}
    ensures r.Some? ==> exists i :: 0 <= i < |s| && s[i] == d && d !in s[..i] && r.value == s[..i] + s[i + 1..]
  {
    if d in s then
      var i := IndexOf(s, d);
      assert s == s[..i] + [d] + s[i + 1..];
      assert multiset(s) == multiset(s[..i]) + multiset{d} + multiset(s[i + 1..]);
      Some(s[..i] + s[i + 1..])
    else None
  }

  /** Python's `sum(g(d) for d in s)`, empty sum zero. */
  function SumOf<T>(s: seq<T>, g: T -> real): real
  {
    if s == [] then 0.0 else g(s[0]) + SumOf(s[1..], g)
  }

  lemma {:induction false} SumOfInsert<T>(x: T, t: seq<T>, key: T -> real, g: T -> real)
    requires SortedBy(t, key)
    ensures SumOf(Insert(x, t, key), g) == g(x) + SumOf(t, g)
  {
    if t == [] || key(t[0]) <= key(x) {
      assert ([x] + t)[1..] == t;
    } else {
      var r := [t[0]] + Insert(x, t[1..], key);
      assert r[1..] == Insert(x, t[1..], key);
      SumOfInsert(x, t[1..], key, g);
    }
  }

  /** Sorting does not change a sum over the list. */
  lemma {:induction false} SumOfSorted<T>(s: seq<T>, key: T -> real, g: T -> real)
    ensures SumOf(SortBy(s, key), g) == SumOf(s, g)
  {
    if s != [] {
      SumOfSorted(s[1..], key, g);
      SumOfInsert(s[0], SortBy(s[1..], key), key, g);
    }
  }

  /** A list comprehension `[x for x in s if keep(x)]`. */
  function Filter<T(==,!new)>(s: seq<T>, keep: T -> bool): (r: seq<T>)
    ensures forall x :: x in r <==> x in s && keep(x)
    ensures |r| <= |s|
  {
    if s == [] then []
    else (if keep(s[0]) then [s[0]] else []) + Filter(s[1..], keep)
  }

  /** Filtering works piecewise, so it keeps the relative order of what it
      keeps. */
  lemma {:induction false} FilterConcat<T(!new)>(a: seq<T>, b: seq<T>, keep: T -> bool)
    ensures Filter(a + b, keep) == Filter(a, keep) + Filter(b, keep)
  {
    if a == [] {
      assert a + b == b;
    } else {
      assert (a + b)[1..] == a[1..] + b;
      FilterConcat(a[1..], b, keep);
    }
  }

  /** Filtering twice with the same test is filtering once. */
  lemma {:induction false} FilterIdempotent<T(!new)>(s: seq<T>, keep: T -> bool)
    ensures Filter(Filter(s, keep), keep) == Filter(s, keep)
  {
    if s != [] {
      FilterIdempotent(s[1..], keep);
      if keep(s[0]) {
        var f := Filter(s, keep);
        assert f == [s[0]] + Filter(s[1..], keep);
        assert f[1..] == Filter(s[1..], keep);
        assert Filter(f, keep) == [s[0]] + Filter(f[1..], keep);
      } else {
        assert Filter(s, keep) == Filter(s[1..], keep);
      }
    }
  }

  /** Filtering a list whose every element passes changes nothing. */
  lemma {:induction false} FilterKeepsAll<T(!new)>(s: seq<T>, keep: T -> bool)
    requires forall i :: 0 <= i < |s| ==> keep(s[i])
    ensures Filter(s, keep) == s
  {
    if s != [] {
      assert keep(s[0]);
      FilterKeepsAll(s[1..], keep);
    }
  }
}

=== FILE: text.dfy ===
/** The small part of Python's string behaviour the models rely on:
    `str.isupper()` on one character, `str.lower()`, and `str(int)`.
    Case mapping covers ASCII and the Latin-1 letters. */
module Text {

  /** `c.isupper()` for a single character. */
  predicate IsUpperChar(c: char)
  {
    ('A' <= c <= 'Z') || ('À' <= c <= 'Þ' && c != '×')
  }

  /** `c.lower()` for a single character. */
  function LowerChar(c: char): (r: char)
    ensures IsUpperChar(c) <==> r != c
    ensures !IsUpperChar(r)
  {
    if IsUpperChar(c) then (c as int + 32) as char else c
  }

  /** `s.lower()`: every character lowered, length kept. */
  function Lower(s: string): (r: string)
    ensures |r| == |s|
    ensures forall i :: 0 <= i < |s| ==> r[i] == LowerChar(s[i])
  {
    if s == [] then [] else [LowerChar(s[0])] + Lower(s[1..])
  }

  /** A decimal digit character. */
  predicate IsDigit(c: char)
  {
    '0' <= c <= '9'
  }

  predicate AllDigits(s: string)
  {
    forall i :: 0 <= i < |s| ==> IsDigit(s[i])
  }

  function DigitChar(d: int): (r: char)
    requires 0 <= d <= 9
    ensures IsDigit(r) && r as int - '0' as int == d
  {
    "0123456789"[d]
  }

  /** The number a string of decimal digits denotes, read left to right. */
  function DigitsValue(s: string): (r: nat)
    requires AllDigits(s)
  {
    if s == [] then 0
    else DigitsValue(s[..|s| - 1]) * 10 + (s[|s| - 1] as int - '0' as int)
  }

  /** Decimal digits of a natural number, no leading zeros. */
  function NatText(n: nat): (r: string)
    ensures |r| >= 1 && AllDigits(r)
    ensures r[0] == '0' ==> n == 0
    decreases n
  {
    if n < 10 then [DigitChar(n)] else NatText(n / 10) + [DigitChar(n % 10)]
  }

  /** Reading the digits back gives the number. */
  lemma {:induction false} NatTextValue(n: nat)
    ensures DigitsValue(NatText(n)) == n
    decreases n
  {
    if n >= 10 {
      var t := NatText(n);
      assert t[..|t| - 1] == NatText(n / 10);
      NatTextValue(n / 10);
    }
  }

  /** `str(n)` for a Python int: a minus sign exactly for negative numbers,
      then the digits of the magnitude. */
  function IntText(n: int): (r: string)
    ensures |r| >= 1
    ensures r[0] == '-' <==> n < 0
    ensures n < 0 ==> |r| >= 2 && AllDigits(r[1..])
    ensures 0 <= n ==> AllDigits(r)
  {
    if n < 0 then
      assert ("-" + NatText(-n))[1..] == NatText(-n);
      "-" + NatText(-n)
    else NatText(n)
  }

  /** Reading `str(n)` back gives n. */
  lemma IntTextValue(n: int)
    ensures 0 <= n ==> DigitsValue(IntText(n)) == n
    ensures n < 0 ==> DigitsValue(IntText(n)[1..]) == -n
  {
    if n < 0 {
      var t := NatText(-n);
      assert IntText(n) == "-" + t;
      assert ("-" + t)[1..] == t;
      NatTextValue(-n);
    } else {
      assert IntText(n) == NatText(n);
      NatTextValue(n);
    }
  }

  /** Which characters count as capitals: ASCII and Latin-1 capitals, but
      not lower-case letters, digits, the multiplication sign or sharp s. */
  lemma IsUpperCharExamples()
    ensures IsUpperChar('B') && IsUpperChar('Z') && IsUpperChar('É')
    ensures !IsUpperChar('b') && !IsUpperChar('é') && !IsUpperChar('1')
    ensures !IsUpperChar('×') && !IsUpperChar('ß') && !IsUpperChar(' ')
  {
  }
}

=== FILE: user.dfy ===
/** The user value of models/user.py: range-checked age and weight, a gender
    that is stored without any check, a display string and exact equality. */
module Users {
  import opened Results
  import opened Text

  datatype User = User(name: string, age: int, gender: string, weight: real)

  /** What `__post_init__` guarantees of every User object. */
  predicate Valid(u: User)
  {
    0 <= u.age <= 150 && 0.0 <= u.weight <= 500.0
  }

  /** `User(name, age, gender, weight)`: age is checked first, then weight;
      both bounds are inclusive and the gender is never looked at. */
  function Create(name: string, age: int, gender: string, weight: real): (r: Result<User>)
    ensures r.Ok? <==> 0 <= age <= 150 && 0.0 <= weight <= 500.0
    ensures !(0 <= age <= 150) ==> r == Err(AgeOutOfRange)
    ensures 0 <= age <= 150 && !(0.0 <= weight <= 500.0) ==> r == Err(WeightOutOfRange)
    ensures r.Ok? ==> Valid(r.value) && r.value == User(name, age, gender, weight)
  {
    if !(0 <= age <= 150) then Err(AgeOutOfRange)
    else if !(0.0 <= weight <= 500.0) then Err(WeightOutOfRange)
    else Ok(User(name, age, gender, weight))
  }

  /** Any gender string is accepted: changing it never changes whether a
      user can be built. */
  lemma GenderUnchecked(name: string, age: int, g1: string, g2: string, weight: real)
    ensures Create(name, age, g1, weight).Ok? <==> Create(name, age, g2, weight).Ok?
  {
  }

  /** Rebuilding a user from its own fields gives it back. */
  lemma CreateReload(u: User)
    requires Valid(u)
    ensures Create(u.name, u.age, u.gender, u.weight) == Ok(u)
  {
  }

  /** `__str__`: "{name} ({age} years, {gender}, {weight} Kg)"; the weight is
      rendered by the abstract number format. */
  function Display(u: User, fmt: real -> string): (r: string)
    ensures |r| > |u.name| + 2 && r[..|u.name| + 2] == u.name + " ("
    ensures |r| >= 4 && r[|r| - 4..] == " Kg)"
  {
    u.name + " (" + IntText(u.age) + " years, " + u.gender + ", " + fmt(u.weight) + " Kg)"
  }

  /** The tests' example user renders as "Alice (34 years, female, 65 Kg)". */
  lemma DisplayExample(fmt: real -> string)
    requires fmt(65.0) == "65"
    ensures Display(User("Alice", 34, "female", 65.0), fmt) == "Alice (34 years, female, 65 Kg)"
  {
    assert IntText(34) == "34";
  }

  /** `__eq__`: all four fields compared exactly, so the name is case-sensitive. */
  predicate Same(a: User, b: User)
  {
    a.name == b.name && a.age == b.age && a.gender == b.gender && a.weight == b.weight
  }

  /** User equality is structural equality; two users differing only in the
      case of the name are different. */
  lemma SameIsStructural(a: User, b: User)
    ensures Same(a, b) <==> a == b
    ensures !Same(User("Alice", 34, "female", 65.0), User("alice", 34, "female", 65.0))
  {
  }

  /** The first half of `calculate` in both route modules: read the form
      fields (a missing weight is 70, a missing age 20, a missing gender
      "male") and build the User named "User". Unparsable text and out-of-range values are both an
      invalid input. */
  function FromForm(weight: Field<real>, gender: Option<string>, age: Field<int>): (r: Result<User>)
    ensures var w, a := ReadField(weight, 70.0), ReadField(age, 20);
      var g := if gender.Some? then gender.value else "male";
      && (r.Ok? <==> w.Ok? && a.Ok? && 0 <= a.value <= 150 && 0.0 <= w.value <= 500.0)
      && (r.Ok? ==> r.value == User("User", a.value, g, w.value) && Valid(r.value))
  {
    var w, a := ReadField(weight, 70.0), ReadField(age, 20);
    var g := if gender.Some? then gender.value else "male";
    if w.Err? || a.Err? then Err(NotANumber)
    else Create("User", a.value, g, w.value)
  }
}

=== FILE: views.dfy ===
/** The two views both route modules derive from a session's drink lists:
    `get_combined_drinks` (picked then custom drinks, stably sorted by
    descending litres) and the drink summary counting `__eq__`-equal drinks
    per display string. main.py and alcohol_calculator.py define them alike. */
module Views {
  import opened Drinks
  import opened Selection

  /** `get_combined_drinks`. */
  function Combine(selected: seq<Drink>, custom: seq<Drink>): (r: seq<Drink>)
    ensures multiset(r) == multiset(selected + custom)
    ensures SortedBy(r, Liters)
  {
    SortBy(selected + custom, Liters)
  }

  /** The combined view holds exactly the picked and custom drinks. */
  lemma CombineMembers(selected: seq<Drink>, custom: seq<Drink>)
    ensures forall d :: d in Combine(selected, custom) <==> d in selected + custom
    ensures |Combine(selected, custom)| == |selected| + |custom|
  {
    var c := Combine(selected, custom);
    forall d
      ensures d in c <==> d in selected + custom
    {
      assert d in c <==> d in multiset(c);
    }
  }

  /** The combined view of constructed drinks holds only constructed drinks. */
  lemma CombineValid(selected: seq<Drink>, custom: seq<Drink>)
    requires AllValid(selected) && AllValid(custom)
    ensures AllValid(Combine(selected, custom))
  {
    var r := Combine(selected, custom);
    forall i | 0 <= i < |r|
      ensures Valid(r[i])
    {
      assert r[i] in multiset(selected + custom);
    }
  }

  /** The drink summary: one key per display string of a picked or custom
      drink, each counting the `__eq__`-equal drinks of the combined list. */
  function DrinkSummary(selected: seq<Drink>, custom: seq<Drink>, fmt: NumberFormat): (r: map<string, nat>)
    ensures forall d :: d in selected + custom ==> Display(d, fmt) in r
    ensures forall k :: k in r ==> exists d :: d in selected + custom && Display(d, fmt) == k
    ensures forall k :: k in r ==> 1 <= r[k] <= |selected| + |custom|
    ensures r == map[] <==> selected == [] && custom == []
  {
    CombineMembers(selected, custom);
    Summary(Combine(selected, custom), Show(fmt), Same)
  }
}
